=== FILE: README.md ===
# Sequence canopy clustering in Dafny

This project models the sequence-canopy core of a Mahout fork. Points are
vectors whose non-zero entries, in index order, form a token sequence (a
user journey). Two points are compared by a banded Levenshtein distance,
normalised by the longer sequence and capped at 1.0. Canopies are grown
around seed points in two ways:

- **streaming**: `addPointToCanopies`, used by the mapper and the reducer;
- **batch**: the reference `createCanopies`.

Each canopy is a cluster. It holds pending statistics (`s0`, `s1`, `s2`),
and `computeParameters` turns them into an observation count, a center and
a radius.

The modules follow the Java classes:

- `EditDistance`: the textbook edit distance, the reference for everything else.
- `LevenshteinMeasure`: `LevensteinDistanceMeasure`.
  - `GetLevenshteinDistance` is the imperative two-row dynamic program over `int` arrays with the `Integer.MAX_VALUE` sentinel.
  - The ghost function `Band` says what those arrays hold.
  - Lemmas connect `Band` to the edit distance: inside the threshold the band is exact, and outside it the band never undercuts the distance.
- `AbstractCluster`: `SequenceAbstractCluster`, as a pure state machine over an immutable `Cluster` value.
- `MeasureCluster`: `SequenceDistanceMeasureCluster`. The source's `SequenceCanopy` is taken to be this class.
- `CanopyClusterer`: `SequenceCanopyClusterer`. The distance measure is a parameter of type `Measure`, any function from two vectors to a non-negative real. `LevenshteinMeasure.Levenshtein` is one instance.
- `JavaInt`, `Vectors`, `Decimal` and `Outcomes`: Java `int` wrap-around, dense vectors, `Integer.toString`, and `Option`/`Result`.

The model follows the code as written in two places where the behaviour may
surprise a reader:

- `observe(Vector)` only increments `s0`. It fills `s1`/`s2` with the point
  only when they are null. Neither seeding constructor leaves them null;
  only the no-argument constructors do, and those are not modelled (see
  "## Left out"). So in the model no coordinate is ever accumulated.
- As a consequence, a canopy that absorbed at least one point gets, from
  `computeParameters`, the zero vector `s1` as its center and radius. A
  canopy that absorbed nothing keeps its seed as its center.
  `CanopyClusterer.SeededAt` states both cases and
  `CanopyClusterer.BatchSeeded` proves them for `createCanopies`, with the
  number of absorbed points determined by the input
  (`CanopyClusterer.CountWithinPositive` says when it is zero).

Error conditions are values, not exceptions: a negative threshold gives
`IllegalArgument("Threshold must not be negative")`.

## Model

| member | source | states |
|---|---|---|
| JavaInt.Inc32 | core/src/main/java/org/apache/mahout/clustering/sequence/SequenceCanopyClusterer.java:97 | `nextCanopyId++` adds one and wraps from `Integer.MAX_VALUE` to `Integer.MIN_VALUE` |
| Vectors.Like | core/src/main/java/org/apache/mahout/clustering/sequence/SequenceAbstractCluster.java:35-38 | `like()` gives a zero vector of the same size |
| Vectors.NonZeroes | core/src/main/java/org/apache/mahout/common/distance/LevensteinDistanceMeasure.java:119-125 | the token list holds exactly the non-zero entries of the vector and is never longer than it |
| Vectors.NonZeroValuesSingle | core/src/main/java/org/apache/mahout/common/distance/LevensteinDistanceMeasure.java:119-125 | a single value yields itself as a token exactly when it is non-zero |
| Vectors.NonZeroValuesAppend | core/src/main/java/org/apache/mahout/common/distance/LevensteinDistanceMeasure.java:119-125 | the tokens of a concatenation are the tokens of each part, in order; with the single-value case this fixes the tokens as the non-zero values in index order, repeats kept |
| Vectors.ZeroValuesHaveNoTokens | core/src/main/java/org/apache/mahout/common/distance/LevensteinDistanceMeasure.java:119-125 | an all-zero vector yields the empty token list |
| Decimal.NatToStringRoundTrip | core/src/main/java/org/apache/mahout/clustering/sequence/SequenceDistanceMeasureCluster.java:72-74 | the decimal rendering of a natural number parses back to it |
| Decimal.IntToStringRoundTrip | core/src/main/java/org/apache/mahout/clustering/sequence/SequenceDistanceMeasureCluster.java:72-74 | the decimal rendering of an id, with a minus sign when negative, parses back to the id |
| Decimal.IntToStringUnique | core/src/main/java/org/apache/mahout/clustering/sequence/SequenceDistanceMeasureCluster.java:72-74 | the rendering is the only canonical decimal that reads back to the id, so with the round trip it fixes the string `Integer.toString` gives |
| Decimal.CanonicalDigitsAreRendering | core/src/main/java/org/apache/mahout/clustering/sequence/SequenceDistanceMeasureCluster.java:72-74 | a digit string without a leading zero is the rendering of its own value |
| EditDistance.DistSymmetric | core/src/main/java/org/apache/mahout/common/distance/LevensteinDistanceMeasure.java:40-47 | edit distance does not depend on argument order, so swapping the lists to save memory does not change the result |
| EditDistance.DistAtLeastLengthGap | core/src/main/java/org/apache/mahout/common/distance/LevensteinDistanceMeasure.java:72-75 | edit distance is at least the length difference, so an empty stripe means the distance exceeds the threshold |
| EditDistance.DistAtMostLonger | core/src/main/java/org/apache/mahout/common/distance/LevensteinDistanceMeasure.java:101-103 | edit distance is at most the longer length, so the normalised value is at most 1 |
| EditDistance.DistToItself | core/src/main/java/org/apache/mahout/common/distance/LevensteinDistanceMeasure.java:84-86 | a sequence is at distance 0 from itself |
| EditDistance.DistOnMatch | core/src/main/java/org/apache/mahout/common/distance/LevensteinDistanceMeasure.java:84-86 | on equal last tokens the distance is that of the two shorter prefixes, so copying the diagonal is optimal |
| EditDistance.DistOnMismatch | core/src/main/java/org/apache/mahout/common/distance/LevensteinDistanceMeasure.java:88-89 | on unequal last tokens the distance is one more than the cheapest of substitution, deletion and insertion; this is the definition of `Dist` unfolded once, stated for the band proofs to cite, not a separate claim |
| LevenshteinMeasure.GetLevenshteinDistance | core/src/main/java/org/apache/mahout/common/distance/LevensteinDistanceMeasure.java:15-107 | an error exactly for a negative threshold; for non-empty lists, the true edit distance over the longer length when within the threshold and 1.0 otherwise; empty lists as `BoundedDistance` says |
| LevenshteinMeasure.StripeCost | core/src/main/java/org/apache/mahout/common/distance/LevensteinDistanceMeasure.java:49-97 | the outer loop leaves the table only when the lengths differ by more than the threshold; otherwise it returns the banded cost of the last cell |
| LevenshteinMeasure.FillRow | core/src/main/java/org/apache/mahout/common/distance/LevensteinDistanceMeasure.java:83-91 | after the inner loop every stripe cell of the row holds its banded cost, and no `int` overflows |
| LevenshteinMeasure.CellCostCorrect | core/src/main/java/org/apache/mahout/common/distance/LevensteinDistanceMeasure.java:84-90 | the diagonal on equal tokens, else 1 + min of the three neighbours, is the banded cost and fits an `int` |
| LevenshteinMeasure.BandFinite | core/src/main/java/org/apache/mahout/common/distance/LevensteinDistanceMeasure.java:58-61 | every stripe cell is finite and at most the longer prefix, so the sentinel is never incremented past `Integer.MAX_VALUE` |
| LevenshteinMeasure.BandAtLeastDist | core/src/main/java/org/apache/mahout/common/distance/LevensteinDistanceMeasure.java:68-70 | restricting to the stripe never gives a value below the true edit distance |
| LevenshteinMeasure.BandExactWithinThreshold | core/src/main/java/org/apache/mahout/common/distance/LevensteinDistanceMeasure.java:99-103 | when the true distance is within the threshold, the banded cost equals it |
| LevenshteinMeasure.MismatchExact | core/src/main/java/org/apache/mahout/common/distance/LevensteinDistanceMeasure.java:88-89 | on unequal tokens within the threshold, 1 + the minimum of the three banded neighbours is the true distance |
| LevenshteinMeasure.BandedCostCorrect | core/src/main/java/org/apache/mahout/common/distance/LevensteinDistanceMeasure.java:99-106 | `p[n] <= threshold` holds exactly when the edit distance is within the threshold, and then `p[n]` is that distance |
| LevenshteinMeasure.ThresholdFor | core/src/main/java/org/apache/mahout/common/distance/LevensteinDistanceMeasure.java:129-130 | the threshold is the least integer at least a fifth of the longer list |
| LevenshteinMeasure.ShortWithinItsThreshold | core/src/main/java/org/apache/mahout/common/distance/LevensteinDistanceMeasure.java:33-38 | with that threshold, a non-empty list against an empty one passes the raw-length test only at length 1 |
| LevenshteinMeasure.Distance | core/src/main/java/org/apache/mahout/common/distance/LevensteinDistanceMeasure.java:111-132 | the vector distance always lies in [0, 1] |
| LevenshteinMeasure.ComputeDistance | core/src/main/java/org/apache/mahout/common/distance/LevensteinDistanceMeasure.java:111-132 | running the banded program on the non-zero tokens yields the specified bounded distance |
| LevenshteinMeasure.CentroidLengthIgnored | core/src/main/java/org/apache/mahout/common/distance/LevensteinDistanceMeasure.java:135-137 | the three-argument form ignores the squared centroid length and equals the two-argument form |
| LevenshteinMeasure.IdenticalAtZero | core/src/main/java/org/apache/mahout/common/distance/LevensteinDistanceMeasure.java:15-107 | identical lists are at distance 0 under any valid threshold |
| LevenshteinMeasure.VectorAtZeroFromItself | core/src/main/java/org/apache/mahout/common/distance/LevensteinDistanceMeasure.java:111-132 | every vector is at distance 0 from itself |
| LevenshteinMeasure.LengthGapIsMaximal | core/src/main/java/org/apache/mahout/common/distance/LevensteinDistanceMeasure.java:72-75 | lengths that differ by more than the threshold give 1.0 |
| LevenshteinMeasure.EmptySideIsRawLength | core/src/main/java/org/apache/mahout/common/distance/LevensteinDistanceMeasure.java:33-38 | with an empty side the result is the other length, not normalised, when within the threshold, else 1 |
| LevenshteinMeasure.BoundedDistanceSymmetric | core/src/main/java/org/apache/mahout/common/distance/LevensteinDistanceMeasure.java:40-47 | the bounded distance of two lists does not depend on their order |
| LevenshteinMeasure.DistanceSymmetric | core/src/main/java/org/apache/mahout/common/distance/LevensteinDistanceMeasure.java:111-132 | the vector distance is symmetric |
| AbstractCluster.Seed | core/src/main/java/org/apache/mahout/clustering/sequence/SequenceAbstractCluster.java:31-40 | a seeded cluster is valid, centered at the point, with zero radius, zero `s1`/`s2` of the point's shape, and zero counts |
| AbstractCluster.SeedWithRadius | core/src/main/java/org/apache/mahout/clustering/sequence/SequenceAbstractCluster.java:42-51 | keeps the given center and radius, with zero `s1`/`s2` of the center's shape and zero counts |
| AbstractCluster.Observe | core/src/main/java/org/apache/mahout/clustering/sequence/SequenceAbstractCluster.java:200-209 | `s0` grows by one; the point replaces `s1`/`s2` only where absent; nothing else changes; validity is preserved |
| AbstractCluster.WeightIgnored | core/src/main/java/org/apache/mahout/clustering/sequence/SequenceAbstractCluster.java:196-198 | the weighted observation is the same for every weight |
| AbstractCluster.ObserveOnlyCounts | core/src/main/java/org/apache/mahout/clustering/sequence/SequenceAbstractCluster.java:200-209 | on a cluster with `s1`/`s2`, observing changes only the count |
| AbstractCluster.ObserveAllOnlyCounts | core/src/main/java/org/apache/mahout/clustering/sequence/SequenceAbstractCluster.java:200-209 | observing any sequence of points adds its length to `s0` and nothing else |
| AbstractCluster.ObserveModel | core/src/main/java/org/apache/mahout/clustering/sequence/SequenceAbstractCluster.java:183-188 | adopts the other cluster's `s0`/`s1`/`s2` and keeps its own id, center, radius and counts |
| AbstractCluster.ObserveModelIdempotent | core/src/main/java/org/apache/mahout/clustering/sequence/SequenceAbstractCluster.java:183-188 | adopting twice equals adopting once, and adopting one's own statistics is a no-op |
| AbstractCluster.ComputeParameters | core/src/main/java/org/apache/mahout/clustering/sequence/SequenceAbstractCluster.java:213-224 | no-op with nothing pending; otherwise the pending count becomes `numObservations`, adds to `totalObservations`, `s1`/`s2` become center/radius, and pending state restarts at zero; validity preserved |
| AbstractCluster.ComputeParametersIdempotent | core/src/main/java/org/apache/mahout/clustering/sequence/SequenceAbstractCluster.java:213-224 | finalising twice equals finalising once |
| AbstractCluster.TotalObservationsMonotone | core/src/main/java/org/apache/mahout/clustering/sequence/SequenceAbstractCluster.java:200-224 | one observation or one finalisation keeps a cluster valid and never decreases `totalObservations` |
| AbstractCluster.RunTotalMonotone | core/src/main/java/org/apache/mahout/clustering/sequence/SequenceAbstractCluster.java:200-224 | along any run of observations and finalisations from a valid cluster, `totalObservations` never decreases and the id never changes |
| AbstractCluster.CentroidPredictsCenter | core/src/main/java/org/apache/mahout/clustering/sequence/SequenceAbstractCluster.java:244-246 | `computeCentroid` returns exactly the center that `computeParameters` would set |
| MeasureCluster.NewMeasureCluster | core/src/main/java/org/apache/mahout/clustering/sequence/SequenceDistanceMeasureCluster.java:22-25 | the statistics are those of a seeded cluster, bound to the given measure |
| MeasureCluster.Identifier | core/src/main/java/org/apache/mahout/clustering/sequence/SequenceDistanceMeasureCluster.java:72-74 | the identifier starts with "DMC:" and the rest is a canonical decimal (no leading zero, no "-0") that parses back to the id |
| MeasureCluster.IdentifierUnique | core/src/main/java/org/apache/mahout/clustering/sequence/SequenceDistanceMeasureCluster.java:72-74 | the identifier is "DMC:" followed by the one canonical decimal form of the id |
| MeasureCluster.IdentifierInjective | core/src/main/java/org/apache/mahout/clustering/sequence/SequenceDistanceMeasureCluster.java:72-74 | clusters with different ids have different identifiers |
| MeasureCluster.SampleFromPosterior | core/src/main/java/org/apache/mahout/clustering/sequence/SequenceDistanceMeasureCluster.java:56-58 | the sample keeps the center, id and measure; it is valid, with zero counts and zero radius, `s1` and `s2` of the center's shape |
| MeasureCluster.SampleFromPosteriorIdempotent | core/src/main/java/org/apache/mahout/clustering/sequence/SequenceDistanceMeasureCluster.java:56-58 | sampling from a sample gives the same sample |
| MeasureCluster.Pdf | core/src/main/java/org/apache/mahout/clustering/sequence/SequenceDistanceMeasureCluster.java:51-53 | the density lies in (0, 1]; it is 1 exactly at distance 0, and at least 1/2 when the distance is at most 1 |
| MeasureCluster.LevenshteinPdfBounds | core/src/main/java/org/apache/mahout/clustering/sequence/SequenceDistanceMeasureCluster.java:51-53 | under the Levenshtein measure the density lies in [1/2, 1] |
| MeasureCluster.GetAfterSetMeasure | core/src/main/java/org/apache/mahout/clustering/sequence/SequenceDistanceMeasureCluster.java:60-69 | reading the measure after setting it returns the measure set, and the statistics are untouched |
| CanopyClusterer.NewClusterer | core/src/main/java/org/apache/mahout/clustering/sequence/SequenceCanopyClusterer.java:42-48 | t3/t4 default to t1/t2 and ids start at 0 |
| CanopyClusterer.UseT3T4 | core/src/main/java/org/apache/mahout/clustering/sequence/SequenceCanopyClusterer.java:69-72 | the merge thresholds become the active ones; nothing else changes |
| CanopyClusterer.SetT3 | core/src/main/java/org/apache/mahout/clustering/sequence/SequenceCanopyClusterer.java:150-152 | changes only t3 |
| CanopyClusterer.SetT4 | core/src/main/java/org/apache/mahout/clustering/sequence/SequenceCanopyClusterer.java:154-156 | changes only t4 |
| CanopyClusterer.UseT3T4Defaults | core/src/main/java/org/apache/mahout/clustering/sequence/SequenceCanopyClusterer.java:42-72 | without setters the switch changes nothing, and switching is idempotent |
| CanopyClusterer.SettersFeedMergePass | core/src/main/java/org/apache/mahout/clustering/sequence/SequenceCanopyClusterer.java:66-72 | thresholds set by `setT3`/`setT4` are the ones active after the switch |
| CanopyClusterer.ScanCorrect | core/src/main/java/org/apache/mahout/clustering/sequence/SequenceCanopyClusterer.java:86-94 | each canopy is observed exactly when its center is within t1; the flag is set exactly when some center is within t2 |
| CanopyClusterer.AddPointToCanopies | core/src/main/java/org/apache/mahout/clustering/sequence/SequenceCanopyClusterer.java:85-99 | either no canopy is added and the clusterer is unchanged, or exactly one canopy seeded at the point with the current id is appended and the id advances by one `int` increment |
| CanopyClusterer.AddPointCreates | core/src/main/java/org/apache/mahout/clustering/sequence/SequenceCanopyClusterer.java:85-99 | a canopy is added exactly when no existing center is within t2 of the point |
| CanopyClusterer.AddPointAbsorbs | core/src/main/java/org/apache/mahout/clustering/sequence/SequenceCanopyClusterer.java:86-94 | every existing canopy is observed or left as it was, on its own distance to the point against t1 |
| CanopyClusterer.AdvanceCounts | core/src/main/java/org/apache/mahout/clustering/sequence/SequenceCanopyClusterer.java:97 | repeated increments add up without wrapping while below `Integer.MAX_VALUE` |
| CanopyClusterer.AdvanceFromZero | core/src/main/java/org/apache/mahout/clustering/sequence/SequenceCanopyClusterer.java:97 | the n-th id after 0 is n |
| CanopyClusterer.AddPoints | core/src/main/java/org/apache/mahout/clustering/sequence/SequenceCanopyMapper.java:39-41 | feeding points only appends canopies, at most one per point, and the id advances once per canopy appended |
| CanopyClusterer.AddPointsKeeps | core/src/main/java/org/apache/mahout/clustering/sequence/SequenceCanopyMapper.java:39-41 | a canopy present before the points are fed keeps its id and its center |
| CanopyClusterer.AddPointsIds | core/src/main/java/org/apache/mahout/clustering/sequence/SequenceCanopyClusterer.java:95-97 | the canopies appended while feeding points carry consecutive ids, with wrap-around, from `nextCanopyId` |
| CanopyClusterer.AddPointsValid | core/src/main/java/org/apache/mahout/clustering/sequence/SequenceCanopyMapper.java:39-41 | feeding points keeps every canopy well formed |
| CanopyClusterer.StreamingIdsFromZero | core/src/main/java/org/apache/mahout/clustering/sequence/SequenceCanopyClusterer.java:97 | from a fresh clusterer the canopies of a pass have ids 0, 1, 2, ... in creation order |
| CanopyClusterer.StreamingCounts | core/src/main/java/org/apache/mahout/clustering/sequence/SequenceCanopyClusterer.java:87-92 | over a pass, an existing canopy gains one pending observation per point within t1 of its center and is otherwise unchanged |
| CanopyClusterer.AddPointsSplit | core/src/main/java/org/apache/mahout/clustering/sequence/SequenceCanopyMapper.java:39-41 | feeding `a + b` is feeding `a` and then `b` from the state `a` left |
| CanopyClusterer.AddPointsKeepsMeasure | core/src/main/java/org/apache/mahout/clustering/sequence/SequenceCanopyClusterer.java:85-99 | feeding points never changes the measure of a canopy already present |
| CanopyClusterer.StreamingSeeded | core/src/main/java/org/apache/mahout/clustering/sequence/SequenceCanopyClusterer.java:85-99 | a point no canopy center is within t2 of at its turn seeds the next canopy: it is created at the point with the current id, keeps the clusterer's measure, and ends the pass with one pending observation per later point within t1 of it |
| CanopyClusterer.StreamingOrigin | core/src/main/java/org/apache/mahout/clustering/sequence/SequenceCanopyClusterer.java:85-99 | every canopy a pass appends was created by some point that no center was within t2 of at its turn, at exactly that position |
| CanopyClusterer.CountWithinPositive | core/src/main/java/org/apache/mahout/clustering/sequence/SequenceCanopyClusterer.java:87-92 | a canopy absorbs some point of a sequence exactly when one of them lies within the threshold of its center |
| CanopyClusterer.FinalizeAllCorrect | core/src/main/java/org/apache/mahout/clustering/sequence/SequenceCanopyClusterer.java:143-145 | every canopy is replaced by its `computeParameters` result with the same measure, nothing is left pending, and well-formedness is kept |
| CanopyClusterer.FinalizeAppended | core/src/main/java/org/apache/mahout/clustering/sequence/SequenceCanopyClusterer.java:143-145 | re-finalising already settled canopies changes only the newly added one |
| CanopyClusterer.KeepAbove | core/src/main/java/org/apache/mahout/clustering/sequence/SequenceCanopyMapper.java:53-57 | keeps exactly the canopies with more than `clusterFilter` observations |
| CanopyClusterer.KeepAboveSingle | core/src/main/java/org/apache/mahout/clustering/sequence/SequenceCanopyMapper.java:53-57 | a single canopy is written exactly when it has more than `clusterFilter` observations |
| CanopyClusterer.KeepAboveAppend | core/src/main/java/org/apache/mahout/clustering/sequence/SequenceCanopyMapper.java:53-57 | filtering a concatenation filters each part and keeps their order; with the single case this fixes the output as the canopies above the filter in list order, repeats kept |
| CanopyClusterer.CanopyPass | core/src/main/java/org/apache/mahout/clustering/sequence/SequenceCanopyReducer.java:23-40 | a pass emits valid, finalised canopies above the filter, never more than its input points |
| CanopyClusterer.CanopyPassEmits | core/src/main/java/org/apache/mahout/clustering/sequence/SequenceCanopyMapper.java:51-59 | a canopy is emitted exactly when it is the finalisation of a canopy grown from the points and has more than `clusterFilter` observations |
| CanopyClusterer.EmittedIsFinalised | core/src/main/java/org/apache/mahout/clustering/sequence/SequenceCanopyMapper.java:51-59 | every emitted canopy is the finalisation of a canopy the pass grew and has more than `clusterFilter` observations |
| CanopyClusterer.FinalisedIsEmitted | core/src/main/java/org/apache/mahout/clustering/sequence/SequenceCanopyMapper.java:51-59 | the finalisation of every canopy the pass grew with more than `clusterFilter` observations is emitted |
| CanopyClusterer.OutsideOf | core/src/main/java/org/apache/mahout/clustering/sequence/SequenceCanopyClusterer.java:139-141 | removing the points within t2 never lengthens the list |
| CanopyClusterer.OutsideOfMembers | core/src/main/java/org/apache/mahout/clustering/sequence/SequenceCanopyClusterer.java:139-141 | a point survives exactly when it was in the list and not within t2 of the seed |
| CanopyClusterer.SweepCorrect | core/src/main/java/org/apache/mahout/clustering/sequence/SequenceCanopyClusterer.java:129-142 | the sweep leaves exactly the points outside t2, in order, and the canopy gains one pending observation per point within t1 and nothing else |
| CanopyClusterer.Seeds | core/src/main/java/org/apache/mahout/clustering/sequence/SequenceCanopyClusterer.java:123-127 | there are never more seeds than points, and the first point is the first seed |
| CanopyClusterer.SeedsArePoints | core/src/main/java/org/apache/mahout/clustering/sequence/SequenceCanopyClusterer.java:123-127 | every seed is one of the input points |
| CanopyClusterer.SeedsSeparated | core/src/main/java/org/apache/mahout/clustering/sequence/SequenceCanopyClusterer.java:110-148 | no later seed lies within t2 of an earlier seed |
| CanopyClusterer.SeedsCover | core/src/main/java/org/apache/mahout/clustering/sequence/SequenceCanopyClusterer.java:120-146 | seeds are taken until the list is empty, so every input point is a seed or lies within t2 of one |
| CanopyClusterer.Rests | core/src/main/java/org/apache/mahout/clustering/sequence/SequenceCanopyClusterer.java:123-127 | one remaining-points list per seed, the first being all points after the first |
| CanopyClusterer.SeedsAndRestsTail | core/src/main/java/org/apache/mahout/clustering/sequence/SequenceCanopyClusterer.java:123-146 | the first seed is the first point and sweeps all the others; every later seed and its remaining points are those of the points left outside t2 of the first seed; this unfolds `Seeds` and `Rests` once for the loop proofs, not a separate claim |
| CanopyClusterer.SeedCanopy | core/src/main/java/org/apache/mahout/clustering/sequence/SequenceCanopyClusterer.java:127-145 | the canopy grown from one seed is finalised with the given id, and its observation count is the number of swept points within t1 of the seed; its center is the seed if that count is 0, else the zero vector |
| CanopyClusterer.CreateLoop | core/src/main/java/org/apache/mahout/clustering/sequence/SequenceCanopyClusterer.java:123-146 | the outer loop keeps earlier canopies and appends one canopy per seed |
| CanopyClusterer.CreateLoopUnfold | core/src/main/java/org/apache/mahout/clustering/sequence/SequenceCanopyClusterer.java:123-146 | one iteration appends the seed's finalised canopy and continues on the points outside t2 |
| CanopyClusterer.Grown | core/src/main/java/org/apache/mahout/clustering/sequence/SequenceCanopyClusterer.java:123-146 | a reference definition with one canopy per seed, each grown by `SeedCanopy` alone |
| CanopyClusterer.CreateLoopGrown | core/src/main/java/org/apache/mahout/clustering/sequence/SequenceCanopyClusterer.java:123-146 | the outer loop, re-finalising every canopy on each iteration, yields exactly the starting canopies followed by `Grown` |
| CanopyClusterer.GrownAt | core/src/main/java/org/apache/mahout/clustering/sequence/SequenceCanopyClusterer.java:123-146 | the k-th grown canopy is the one the k-th seed grows over the points left at its turn, with the k-th id |
| CanopyClusterer.CreateLoopCanopy | core/src/main/java/org/apache/mahout/clustering/sequence/SequenceCanopyClusterer.java:123-146 | the k-th canopy the outer loop appends equals `SeedCanopy` of the k-th seed, its remaining points and the k-th id |
| CanopyClusterer.CreateLoopSeeded | core/src/main/java/org/apache/mahout/clustering/sequence/SequenceCanopyClusterer.java:123-146 | the k-th canopy the outer loop appends is finalised, grown from the k-th seed, and counts the points within t1 of that seed among those left at its turn |
| CanopyClusterer.CreateLoopIds | core/src/main/java/org/apache/mahout/clustering/sequence/SequenceCanopyClusterer.java:123-146 | the k-th canopy the outer loop appends carries the k-th id after the starting one |
| CanopyClusterer.CreateCanopies | core/src/main/java/org/apache/mahout/clustering/sequence/SequenceCanopyClusterer.java:110-148 | one canopy per seed, at least one for a non-empty input, never more than the points |
| CanopyClusterer.BatchSeeded | core/src/main/java/org/apache/mahout/clustering/sequence/SequenceCanopyClusterer.java:110-148 | each batch canopy is finalised, grown from the seed at its position, and counts the points within t1 of that seed among those left at its turn; it is centered at the seed if that count is 0, else at the zero vector |
| CanopyClusterer.BatchIds | core/src/main/java/org/apache/mahout/clustering/sequence/SequenceCanopyClusterer.java:110-148 | batch canopies have ids 0, 1, 2, ... in seed order |

## Left out

- Null lists and vectors: `Lists must not be null` is unreachable, because Dafny sequences are never null. The no-argument constructors, which leave every field null, are not modelled.
- Exceptions are modelled as values. `IllegalArgumentException` becomes `Result.IllegalArgument`. A `NullPointerException` in `computeParameters` becomes a precondition (next line).
- AbstractCluster.ComputeParameters: requires both `s1` and `s2` present when something is pending, slightly more than the source needs. With `s1` null the source throws on `center.like()`; with only `s2` null it would just adopt the null as the radius. Only the no-argument constructor or `readFields` can produce either state, and neither is modelled.
- AbstractCluster.ComputeCentroid: requires `s1` present when something is pending. The source then returns the null `s1` without error. The same unmodelled constructors are the only way to reach that state.
- LevenshteinMeasure.GetLevenshteinDistance: requires both lists shorter than `Integer.MAX_VALUE`. At that length the source's `j <= m` loop counter would overflow.
- LevenshteinMeasure.ComputeDistance: requires vectors shorter than `Integer.MAX_VALUE`, for the same reason.
- LevenshteinMeasure.ThresholdFor: `(int) Math.ceil(max * 0.2)` is modelled as the exact integer ceiling of `max / 5`. The floating-point product `max * 0.2` is not modelled.
- LevenshteinMeasure.Distance: Java `double` arithmetic is modelled with exact reals. `NaN` and `-0.0` tokens, and the rounding of the final division, are not modelled. Tokens are compared by real equality.
- Measure: a distance measure is any function from two vectors to a non-negative real. The `DistanceMeasure` interface does not require non-negative results; every measure this model instantiates (`LevenshteinMeasure.Levenshtein`) meets it, and `MeasureCluster.Pdf` relies on it.
- Vectors.NonZeroes: `nonZeroes()` is taken to iterate in index order over a dense vector. Sparse vector classes and their iteration order are not modelled.
- AbstractCluster.Observe: `s0` is a `double` in the source. It is modelled as an unbounded integer, which is exact for counts below 2^53.
- `numObservations` and `totalObservations` are Java `long`. Their overflow and the `(long)` cast of `s0` are not modelled.
- `write`, `readFields`, `formatVector`, `asFormatString`, `configure`, `getParameters`, `createParameters` and `isConverged` are left out. They are serialisation, formatting and configuration with no effect on clustering.
- Logging is not modelled.
- The getters `getT1`..`getT4`, `getId`, `getCenter` and the other field accessors are not modelled as functions. They are field reads of the datatypes.
- Mapper and reducer: the Hadoop `Context`, job configuration (`configureCanopyClusterer`, `Integer.parseInt` of the filter) and output writing are not modelled. `CanopyClusterer.CanopyPass` takes the configured clusterer and the filter as parameters. A merge pass is `CanopyPass` applied to `UseT3T4` of the clusterer. The mapper's projection of canopies to their centers is not modelled.
- Mutation of shared objects is not modelled. Canopies are values, and `addPointToCanopies` returns the updated list and clusterer. `createCanopies` does not empty the caller's input list.
- `SequenceCanopy` is not part of this model. It is taken to be a `SequenceDistanceMeasureCluster` seeded by `(point, id, measure)`.

=== FILE: abstract_cluster.dfy ===
/** The statistics state machine of a sequence cluster
    (SequenceAbstractCluster): a seed, pending counts `s0` with the vectors
    `s1`/`s2`, and the finalised `center`/`radius` with observation counts.

    As written in the source, `observe` only counts: it fills `s1`/`s2`
    solely when they are absent, which neither seeding constructor allows
    (only the unmodelled no-argument constructor does), and never adds the
    observed point into them. */
module AbstractCluster {
  import opened Outcomes
  import opened JavaInt
  import opened Vectors

  datatype Cluster = Cluster(
    id: Int32,
    numObservations: int,
    totalObservations: int,
    center: Vector,
    radius: Vector,
    s0: int,
    s1: Option<Vector>,
    s2: Option<Vector>)

  /** `s1` and `s2` are present (non-null). */
  predicate Shaped(c: Cluster) {
    c.s1.Some? && c.s2.Some?
  }

  /** What every reachable cluster satisfies. */
  predicate Valid(c: Cluster) {
    && Shaped(c)
    && c.s0 >= 0
    && 0 <= c.numObservations <= c.totalObservations
  }

  /** The seeding constructor `(point, id)`. */
  function Seed(point: Vector, id: Int32): (c: Cluster)
    ensures Valid(c) && c.id == id && c.center == point
    ensures SameShape(c.radius, point) && IsZero(c.radius)
    ensures SameShape(c.s1.value, point) && IsZero(c.s1.value)
    ensures SameShape(c.s2.value, point) && IsZero(c.s2.value)
    ensures c.s0 == 0 && c.numObservations == 0 && c.totalObservations == 0
  {
    Cluster(id, 0, 0, point, Like(point), 0, Some(Like(point)), Some(Like(point)))
  }

  /** The constructor `(center, radius, id)`, which copies both vectors. */
  function SeedWithRadius(center: Vector, radius: Vector, id: Int32): (c: Cluster)
    ensures Valid(c) && c.id == id && c.center == center && c.radius == radius
    ensures SameShape(c.s1.value, center) && IsZero(c.s1.value)
    ensures SameShape(c.s2.value, center) && IsZero(c.s2.value)
    ensures c.s0 == 0 && c.numObservations == 0 && c.totalObservations == 0
  {
    Cluster(id, 0, 0, center, radius, 0, Some(Like(center)), Some(Like(center)))
  }

  /** `observe(Vector)`: counts the point; a copy of it replaces `s1`/`s2`
      only where they are absent. */
  function Observe(c: Cluster, x: Vector): (r: Cluster)
    ensures r.s0 == c.s0 + 1
    ensures r.s1 == (if c.s1.Some? then c.s1 else Some(x))
    ensures r.s2 == (if c.s2.Some? then c.s2 else Some(x))
    ensures Shaped(r) && (Valid(c) ==> Valid(r))
    ensures r.id == c.id && r.center == c.center && r.radius == c.radius
    ensures r.numObservations == c.numObservations && r.totalObservations == c.totalObservations
  {
    c.(s0 := c.s0 + 1,
       s1 := if c.s1 == None then Some(x) else c.s1,
       s2 := if c.s2 == None then Some(x) else c.s2)
  }

  /** `observe(VectorWritable, weight)`: the weight plays no part. */
  function ObserveWeighted(c: Cluster, x: Vector, weight: real): Cluster {
    Observe(c, x)
  }

  lemma WeightIgnored(c: Cluster, x: Vector, w1: real, w2: real)
    ensures ObserveWeighted(c, x, w1) == ObserveWeighted(c, x, w2) == Observe(c, x)
  {
  }

  /** On a shaped cluster an observation changes nothing but the count: no
      element of the point is accumulated anywhere. */
  lemma ObserveOnlyCounts(c: Cluster, x: Vector)
    requires Shaped(c)
    ensures Observe(c, x) == c.(s0 := c.s0 + 1)
  {
  }

  /** Observing the points of `xs` one after another. */
  function ObserveAll(c: Cluster, xs: seq<Vector>): Cluster
    decreases |xs|
  {
    if |xs| == 0 then c else ObserveAll(Observe(c, xs[0]), xs[1..])
  }

  /** On a shaped cluster, observing a sequence of points adds its length to
      `s0` and nothing else, whatever the points and their order. */
  lemma {:induction false} ObserveAllOnlyCounts(c: Cluster, xs: seq<Vector>)
    requires Shaped(c)
    ensures ObserveAll(c, xs) == c.(s0 := c.s0 + |xs|)
    decreases |xs|
  {
    if |xs| > 0 {
      ObserveAllOnlyCounts(Observe(c, xs[0]), xs[1..]);
    }
  }

  /** `observe(Model)`: adopts the other cluster's pending statistics. */
  function ObserveModel(c: Cluster, other: Cluster): (r: Cluster)
    ensures r.s0 == other.s0 && r.s1 == other.s1 && r.s2 == other.s2
    ensures r.id == c.id && r.center == c.center && r.radius == c.radius
    ensures r.numObservations == c.numObservations && r.totalObservations == c.totalObservations
    ensures Valid(c) && Valid(other) ==> Valid(r)
  {
    c.(s0 := other.s0, s1 := other.s1, s2 := other.s2)
  }

  /** Adopting another cluster's statistics twice is adopting them once, and
      a cluster adopting its own is unchanged. */
  lemma ObserveModelIdempotent(c: Cluster, other: Cluster)
    ensures ObserveModel(ObserveModel(c, other), other) == ObserveModel(c, other)
    ensures ObserveModel(c, c) == c
  {
  }

  /** `computeParameters`, defined where the source does not dereference a
      null `s1`/`s2`. */
  predicate CanFinalize(c: Cluster) {
    c.s0 != 0 ==> Shaped(c)
  }

  /** `computeParameters`: a no-op with nothing pending; otherwise the
      pending count and vectors become the observation count, center and
      radius, and the pending statistics restart at zero. */
  function ComputeParameters(c: Cluster): (r: Cluster)
    requires CanFinalize(c)
    ensures r.s0 == 0 && r.id == c.id
    ensures c.s0 == 0 ==> r == c
    ensures c.s0 != 0 ==>
      && r.numObservations == c.s0
      && r.totalObservations == c.totalObservations + c.s0
      && r.center == c.s1.value && r.radius == c.s2.value
      && Shaped(r)
      && SameShape(r.s1.value, r.center) && IsZero(r.s1.value)
      && SameShape(r.s2.value, r.center) && IsZero(r.s2.value)
    ensures Valid(c) ==> Valid(r) && r.totalObservations >= c.totalObservations
  {
    if c.s0 == 0 then c
    else
      var center := c.s1.value;
      c.(numObservations := c.s0,
         totalObservations := c.totalObservations + c.s0,
         center := center,
         radius := c.s2.value,
         s0 := 0,
         s1 := Some(Like(center)),
         s2 := Some(Like(center)))
  }

  /** A second finalisation with no observation in between changes nothing. */
  lemma ComputeParametersIdempotent(c: Cluster)
    requires CanFinalize(c)
    ensures ComputeParameters(ComputeParameters(c)) == ComputeParameters(c)
  {
  }

  /** One observation or one finalisation from a valid cluster keeps it
      valid and does not decrease `totalObservations`. */
  lemma TotalObservationsMonotone(c: Cluster, x: Vector)
    requires Valid(c)
    ensures Valid(Observe(c, x)) && Observe(c, x).totalObservations == c.totalObservations
    ensures Valid(ComputeParameters(c)) && ComputeParameters(c).totalObservations >= c.totalObservations
  {
  }

  /** A step of a cluster's life: observing a point or finalising. */
  datatype Step = See(point: Vector) | Finalise

  /** The cluster after `steps`, taken in order. */
  function Run(c: Cluster, steps: seq<Step>): (r: Cluster)
    requires Valid(c)
    ensures Valid(r)
    decreases |steps|
  {
    if |steps| == 0 then c
    else Run(if steps[0].See? then Observe(c, steps[0].point) else ComputeParameters(c), steps[1..])
  }

  /** Along any run of observations and finalisations from a valid cluster,
      `totalObservations` never decreases and the id never changes. */
  lemma {:induction false} RunTotalMonotone(c: Cluster, steps: seq<Step>)
    requires Valid(c)
    ensures Run(c, steps).totalObservations >= c.totalObservations
    ensures Run(c, steps).id == c.id
    decreases |steps|
  {
    if |steps| > 0 {
      var next := if steps[0].See? then Observe(c, steps[0].point) else ComputeParameters(c);
      TotalObservationsMonotone(c, if steps[0].See? then steps[0].point else c.center);
      RunTotalMonotone(next, steps[1..]);
    }
  }

  /** `computeCentroid`: the pending sum when something is pending, else the
      finalised center. */
  function ComputeCentroid(c: Cluster): (v: Vector)
    requires c.s0 != 0 ==> c.s1.Some?
  {
    if c.s0 == 0 then c.center else c.s1.value
  }

  /** The centroid peek is exactly the center a finalisation would adopt,
      without changing the cluster. */
  lemma CentroidPredictsCenter(c: Cluster)
    requires CanFinalize(c)
    ensures ComputeCentroid(c) == ComputeParameters(c).center
  {
  }
}

=== FILE: canopy_clusterer.dfy ===
/** Canopy formation (SequenceCanopyClusterer): the streaming step that
    folds one point into a list of canopies, the batch reference algorithm,
    and the finalise-and-filter step that ends a pass. The distance measure
    is a parameter; `LevenshteinMeasure.Levenshtein` is one instance. */
module CanopyClusterer {
  import opened JavaInt
  import opened Vectors
  import opened AbstractCluster
  import opened MeasureCluster

  datatype Clusterer = Clusterer(nextCanopyId: Int32, t1: real, t2: real, t3: real, t4: real, measure: Measure)

  /** The constructor `(measure, t1, t2)`: the merge thresholds default to
      the absorb thresholds and ids start at 0. */
  function NewClusterer(measure: Measure, t1: real, t2: real): (c: Clusterer)
    ensures c.t1 == t1 && c.t2 == t2 && c.t3 == t1 && c.t4 == t2
    ensures c.nextCanopyId == 0 && c.measure == measure
  {
    Clusterer(0, t1, t2, t1, t2, measure)
  }

  /** `useT3T4`: the merge thresholds become the active ones. */
  function UseT3T4(c: Clusterer): (r: Clusterer)
    ensures r.t1 == c.t3 && r.t2 == c.t4 && r.t3 == c.t3 && r.t4 == c.t4
    ensures r.nextCanopyId == c.nextCanopyId && r.measure == c.measure
  {
    c.(t1 := c.t3, t2 := c.t4)
  }

  function SetT3(c: Clusterer, t3: real): (r: Clusterer)
    ensures r.t3 == t3 && r.t1 == c.t1 && r.t2 == c.t2 && r.t4 == c.t4
    ensures r.nextCanopyId == c.nextCanopyId && r.measure == c.measure
  {
    c.(t3 := t3)
  }

  function SetT4(c: Clusterer, t4: real): (r: Clusterer)
    ensures r.t4 == t4 && r.t1 == c.t1 && r.t2 == c.t2 && r.t3 == c.t3
    ensures r.nextCanopyId == c.nextCanopyId && r.measure == c.measure
  {
    c.(t4 := t4)
  }

  /** Without setters, switching to the merge thresholds changes nothing;
      switching twice is switching once. */
  lemma UseT3T4Defaults(measure: Measure, t1: real, t2: real, c: Clusterer)
    ensures UseT3T4(NewClusterer(measure, t1, t2)) == NewClusterer(measure, t1, t2)
    ensures UseT3T4(UseT3T4(c)) == UseT3T4(c)
  {
  }

  /** Thresholds set through the setters are the ones a merge pass uses. */
  lemma SettersFeedMergePass(c: Clusterer, t3: real, t4: real)
    ensures UseT3T4(SetT4(SetT3(c, t3), t4)).t1 == t3
    ensures UseT3T4(SetT4(SetT3(c, t3), t4)).t2 == t4
  {
  }

  /** Some canopy's center is within `t2` of the point. */
  predicate StronglyBound(canopies: seq<MeasureCluster>, point: Vector, t2: real, measure: Measure) {
    exists i :: 0 <= i < |canopies| && measure(canopies[i].stats.center, point) < t2
  }

  /** The canopy after the scan has seen `point`: observed when its center is
      within `t1`, otherwise as it was. */
  function Absorbed(c: MeasureCluster, point: Vector, t1: real, measure: Measure): MeasureCluster {
    if measure(c.stats.center, point) < t1 then c.(stats := Observe(c.stats, point)) else c
  }

  /** The loop of `addPointToCanopies` over the existing canopies, visiting
      them in order: each is absorbed or left alone on its own center, and
      the flag accumulates whether any was within `t2` (`ScanCorrect`). */
  function Scan(canopies: seq<MeasureCluster>, point: Vector, t1: real, t2: real, measure: Measure)
    : (r: (seq<MeasureCluster>, bool))
    ensures |r.0| == |canopies|
  {
    if |canopies| == 0 then ([], false)
    else
      var dist := measure(canopies[0].stats.center, point);
      var head := if dist < t1 then canopies[0].(stats := Observe(canopies[0].stats, point)) else canopies[0];
      var rest := Scan(canopies[1..], point, t1, t2, measure);
      ([head] + rest.0, dist < t2 || rest.1)
  }

  /** Each canopy is absorbed exactly when its center is within `t1`, and
      the flag is set exactly when some center is within `t2`. */
  lemma {:induction false} ScanCorrect(canopies: seq<MeasureCluster>, point: Vector, t1: real, t2: real, measure: Measure)
    ensures var r := Scan(canopies, point, t1, t2, measure);
      && (forall i :: 0 <= i < |canopies| ==> r.0[i] == Absorbed(canopies[i], point, t1, measure))
      && (r.1 <==> StronglyBound(canopies, point, t2, measure))
    decreases |canopies|
  {
    if |canopies| > 0 {
      ScanCorrect(canopies[1..], point, t1, t2, measure);
      assert forall i :: 1 <= i < |canopies| ==> canopies[i] == canopies[1..][i - 1];
      if StronglyBound(canopies[1..], point, t2, measure) {
        var i :| 0 <= i < |canopies[1..]| && measure(canopies[1..][i].stats.center, point) < t2;
        assert measure(canopies[i + 1].stats.center, point) < t2;
      }
    }
  }

  /** `addPointToCanopies`: the existing canopies are scanned, and a canopy
      seeded at the point with the next id is appended when the scan found
      none within `t2` (`AddPointCreates`, `AddPointAbsorbs`). */
  function AddPointToCanopies(cl: Clusterer, point: Vector, canopies: seq<MeasureCluster>)
    : (r: (Clusterer, seq<MeasureCluster>))
    ensures |r.1| == |canopies| ==> r.0 == cl
    ensures |r.1| != |canopies| ==>
      && |r.1| == |canopies| + 1
      && r.1[|canopies|] == NewMeasureCluster(point, cl.nextCanopyId, cl.measure)
      && r.0 == cl.(nextCanopyId := Inc32(cl.nextCanopyId))
  {
    var (scanned, bound) := Scan(canopies, point, cl.t1, cl.t2, cl.measure);
    if bound then (cl, scanned)
    else (cl.(nextCanopyId := Inc32(cl.nextCanopyId)),
          scanned + [NewMeasureCluster(point, cl.nextCanopyId, cl.measure)])
  }

  /** A new canopy is created exactly when no existing center is within
      `t2` of the point. */
  lemma AddPointCreates(cl: Clusterer, point: Vector, canopies: seq<MeasureCluster>)
    ensures |AddPointToCanopies(cl, point, canopies).1| == |canopies|
            <==> StronglyBound(canopies, point, cl.t2, cl.measure)
  {
    ScanCorrect(canopies, point, cl.t1, cl.t2, cl.measure);
  }

  /** Every existing canopy is absorbed or left untouched on its own
      distance to the point. */
  lemma AddPointAbsorbs(cl: Clusterer, point: Vector, canopies: seq<MeasureCluster>)
    ensures var r := AddPointToCanopies(cl, point, canopies).1;
      forall i :: 0 <= i < |canopies| ==> r[i] == Absorbed(canopies[i], point, cl.t1, cl.measure)
  {
    ScanCorrect(canopies, point, cl.t1, cl.t2, cl.measure);
  }

  /** The id `n` increments after `id`, with Java's wrap-around. */
  function Advance(id: Int32, n: nat): Int32
    decreases n
  {
    if n == 0 then id else Advance(Inc32(id), n - 1)
  }

  lemma {:induction false} AdvanceFromZero(n: nat)
    requires n <= MaxInt
    ensures Advance(0, n) == n
  {
    AdvanceCounts(0, n);
  }

  lemma {:induction false} AdvanceCounts(id: Int32, n: nat)
    requires id + n <= MaxInt
    ensures Advance(id, n) == id + n
    decreases n
  {
    if n > 0 {
      AdvanceCounts(Inc32(id), n - 1);
    }
  }

  predicate AllValid(canopies: seq<MeasureCluster>) {
    forall i :: 0 <= i < |canopies| ==> Valid(canopies[i].stats)
  }

  /** Feeding the points of a pass one at a time (the mapper's loop). It
      only appends canopies, and the id advances once per canopy appended;
      `AddPointsKeeps`, `AddPointsIds` and `AddPointsValid` say more. */
  function AddPoints(cl: Clusterer, points: seq<Vector>, canopies: seq<MeasureCluster>)
    : (r: (Clusterer, seq<MeasureCluster>))
    ensures |canopies| <= |r.1| <= |canopies| + |points|
    ensures r.0 == cl.(nextCanopyId := Advance(cl.nextCanopyId, |r.1| - |canopies|))
    decreases |points|
  {
    if |points| == 0 then (cl, canopies)
    else
      var step := AddPointToCanopies(cl, points[0], canopies);
      AddPoints(step.0, points[1..], step.1)
  }

  /** A canopy present before the pass keeps its id and its center. */
  lemma {:induction false} AddPointsKeeps(cl: Clusterer, points: seq<Vector>, canopies: seq<MeasureCluster>, k: nat)
    requires k < |canopies|
    ensures var r := AddPoints(cl, points, canopies).1;
      r[k].stats.id == canopies[k].stats.id && r[k].stats.center == canopies[k].stats.center
    decreases |points|
  {
    if |points| > 0 {
      var step := AddPointToCanopies(cl, points[0], canopies);
      AddPointAbsorbs(cl, points[0], canopies);
      AddPointsKeeps(step.0, points[1..], step.1, k);
    }
  }

  /** The canopies a pass appends carry consecutive ids from `nextCanopyId`. */
  lemma {:induction false} AddPointsIds(cl: Clusterer, points: seq<Vector>, canopies: seq<MeasureCluster>, k: nat)
    requires |canopies| <= k < |AddPoints(cl, points, canopies).1|
    ensures AddPoints(cl, points, canopies).1[k].stats.id == Advance(cl.nextCanopyId, k - |canopies|)
    decreases |points|
  {
    var step := AddPointToCanopies(cl, points[0], canopies);
    var rest := AddPoints(step.0, points[1..], step.1).1;
    assert AddPoints(cl, points, canopies).1 == rest;
    var target := Advance(cl.nextCanopyId, k - |canopies|);
    if |step.1| == |canopies| {
      assert step.0.nextCanopyId == cl.nextCanopyId;
      AddPointsIds(step.0, points[1..], step.1, k);
    } else if k == |canopies| {
      AddPointsKeeps(step.0, points[1..], step.1, k);
      assert rest[k].stats.id == target;
    } else {
      var next := Inc32(cl.nextCanopyId);
      assert step.0.nextCanopyId == next && k - |step.1| == k - |canopies| - 1;
      AddPointsIds(step.0, points[1..], step.1, k);
      assert target == Advance(next, k - |canopies| - 1);
    }
  }

  /** A pass keeps every canopy well formed. */
  lemma {:induction false} AddPointsValid(cl: Clusterer, points: seq<Vector>, canopies: seq<MeasureCluster>)
    requires AllValid(canopies)
    ensures AllValid(AddPoints(cl, points, canopies).1)
    decreases |points|
  {
    if |points| > 0 {
      var step := AddPointToCanopies(cl, points[0], canopies);
      AddPointAbsorbs(cl, points[0], canopies);
      forall i | 0 <= i < |step.1|
        ensures Valid(step.1[i].stats)
      {
        if i < |canopies| {
          assert Valid(canopies[i].stats);
        }
      }
      AddPointsValid(step.0, points[1..], step.1);
    }
  }

  /** Ids within a pass that starts from no canopy are 0, 1, 2, ... in
      creation order. */
  lemma StreamingIdsFromZero(cl: Clusterer, points: seq<Vector>)
    requires cl.nextCanopyId == 0 && |points| <= MaxInt
    ensures var r := AddPoints(cl, points, []).1;
      forall k :: 0 <= k < |r| ==> r[k].stats.id == k
  {
    var r := AddPoints(cl, points, []).1;
    forall k | 0 <= k < |r|
      ensures r[k].stats.id == k
    {
      AddPointsIds(cl, points, [], k);
      AdvanceFromZero(k);
    }
  }

  /** How many of `points` lie within `t` of `center`. */
  function CountWithin(center: Vector, points: seq<Vector>, t: real, measure: Measure): nat {
    if |points| == 0 then 0
    else (if measure(center, points[0]) < t then 1 else 0) + CountWithin(center, points[1..], t, measure)
  }

  /** The count is positive exactly when some point lies within `t`. */
  lemma {:induction false} CountWithinPositive(center: Vector, points: seq<Vector>, t: real, measure: Measure)
    ensures CountWithin(center, points, t, measure) > 0
            <==> exists i :: 0 <= i < |points| && measure(center, points[i]) < t
    decreases |points|
  {
    if |points| > 0 {
      CountWithinPositive(center, points[1..], t, measure);
      if exists i :: 0 <= i < |points[1..]| && measure(center, points[1..][i]) < t {
        var i :| 0 <= i < |points[1..]| && measure(center, points[1..][i]) < t;
        assert measure(center, points[i + 1]) < t;
      }
      if exists i :: 0 <= i < |points| && measure(center, points[i]) < t {
        var i :| 0 <= i < |points| && measure(center, points[i]) < t;
        if i > 0 {
          assert measure(center, points[1..][i - 1]) < t;
        }
      }
    }
  }

  /** Over a pass, a canopy that existed at the start keeps its center and
      gains one pending observation per point within `t1` of it. */
  lemma {:induction false} StreamingCounts(cl: Clusterer, points: seq<Vector>, canopies: seq<MeasureCluster>, k: nat)
    requires k < |canopies| && Shaped(canopies[k].stats)
    ensures var c := canopies[k];
      AddPoints(cl, points, canopies).1[k].stats
        == c.stats.(s0 := c.stats.s0 + CountWithin(c.stats.center, points, cl.t1, cl.measure))
    decreases |points|
  {
    if |points| > 0 {
      var step := AddPointToCanopies(cl, points[0], canopies);
      AddPointAbsorbs(cl, points[0], canopies);
      StreamingCounts(step.0, points[1..], step.1, k);
    }
  }

  /** Feeding `a + b` is feeding `a`, then `b` from where `a` left off. */
  lemma {:induction false} AddPointsSplit(cl: Clusterer, a: seq<Vector>, b: seq<Vector>, canopies: seq<MeasureCluster>)
    ensures var mid := AddPoints(cl, a, canopies);
      AddPoints(cl, a + b, canopies) == AddPoints(mid.0, b, mid.1)
    decreases |a|
  {
    if |a| == 0 {
      assert a + b == b;
    } else {
      var step := AddPointToCanopies(cl, a[0], canopies);
      assert (a + b)[0] == a[0] && (a + b)[1..] == a[1..] + b;
      AddPointsSplit(step.0, a[1..], b, step.1);
    }
  }

  /** A point no canopy holds within `t2` when its turn comes opens a canopy
      at the end of the list as it stood then: seeded at the point with the
      id current at that turn, and by the end of the pass holding one
      pending observation per later point within `t1`. */
  lemma StreamingSeeded(cl: Clusterer, points: seq<Vector>, canopies: seq<MeasureCluster>, i: nat)
    requires i < |points|
    requires !StronglyBound(AddPoints(cl, points[..i], canopies).1, points[i], cl.t2, cl.measure)
    ensures var before := AddPoints(cl, points[..i], canopies);
      var r := AddPoints(cl, points, canopies).1;
      && |before.1| < |r|
      && r[|before.1|].measure == cl.measure
      && r[|before.1|].stats
         == Seed(points[i], before.0.nextCanopyId).(s0 := CountWithin(points[i], points[i + 1..], cl.t1, cl.measure))
  {
    var before := AddPoints(cl, points[..i], canopies);
    assert points == points[..i] + points[i..];
    AddPointsSplit(cl, points[..i], points[i..], canopies);
    var step := AddPointToCanopies(before.0, points[i], before.1);
    AddPointCreates(before.0, points[i], before.1);
    assert points[i..][0] == points[i] && points[i..][1..] == points[i + 1..];
    assert AddPoints(cl, points, canopies) == AddPoints(step.0, points[i + 1..], step.1);
    StreamingCounts(step.0, points[i + 1..], step.1, |before.1|);
    AddPointsKeepsMeasure(step.0, points[i + 1..], step.1, |before.1|);
  }

  /** Every canopy a pass appends was opened by some point at its turn: the
      one that found no canopy within `t2` when the list had reached that
      canopy's position. */
  lemma {:induction false} StreamingOrigin(cl: Clusterer, points: seq<Vector>, canopies: seq<MeasureCluster>, k: nat)
    requires |canopies| <= k < |AddPoints(cl, points, canopies).1|
    ensures exists i ::
              && 0 <= i < |points|
              && !StronglyBound(AddPoints(cl, points[..i], canopies).1, points[i], cl.t2, cl.measure)
              && |AddPoints(cl, points[..i], canopies).1| == k
    decreases |points|
  {
    var step := AddPointToCanopies(cl, points[0], canopies);
    AddPointCreates(cl, points[0], canopies);
    assert AddPoints(cl, points[..0], canopies) == (cl, canopies);
    if k == |canopies| && |step.1| != |canopies| {
      assert !StronglyBound(AddPoints(cl, points[..0], canopies).1, points[0], cl.t2, cl.measure);
    } else {
      StreamingOrigin(step.0, points[1..], step.1, k);
      var j :| 0 <= j < |points[1..]|
        && !StronglyBound(AddPoints(step.0, points[1..][..j], step.1).1, points[1..][j], step.0.t2, step.0.measure)
        && |AddPoints(step.0, points[1..][..j], step.1).1| == k;
      assert points[..j + 1][0] == points[0] && points[..j + 1][1..] == points[1..][..j];
      assert AddPoints(cl, points[..j + 1], canopies) == AddPoints(step.0, points[1..][..j], step.1);
      assert points[j + 1] == points[1..][j];
    }
  }

  /** A canopy present before the pass keeps its measure. */
  lemma {:induction false} AddPointsKeepsMeasure(cl: Clusterer, points: seq<Vector>, canopies: seq<MeasureCluster>, k: nat)
    requires k < |canopies|
    ensures AddPoints(cl, points, canopies).1[k].measure == canopies[k].measure
    decreases |points|
  {
    if |points| > 0 {
      var step := AddPointToCanopies(cl, points[0], canopies);
      AddPointAbsorbs(cl, points[0], canopies);
      AddPointsKeepsMeasure(step.0, points[1..], step.1, k);
    }
  }

  /** `computeParameters` on every canopy. */
  function FinalizeAll(canopies: seq<MeasureCluster>): (r: seq<MeasureCluster>)
    requires forall i :: 0 <= i < |canopies| ==> CanFinalize(canopies[i].stats)
    ensures |r| == |canopies|
  {
    if |canopies| == 0 then []
    else [canopies[0].(stats := ComputeParameters(canopies[0].stats))] + FinalizeAll(canopies[1..])
  }

  /** After finalisation nothing is pending, each canopy is its own
      finalisation, and well-formedness is kept. */
  lemma {:induction false} FinalizeAllCorrect(canopies: seq<MeasureCluster>)
    requires forall i :: 0 <= i < |canopies| ==> CanFinalize(canopies[i].stats)
    ensures var r := FinalizeAll(canopies);
      && (forall i :: 0 <= i < |r| ==>
            r[i].stats == ComputeParameters(canopies[i].stats) && r[i].measure == canopies[i].measure)
      && (forall i :: 0 <= i < |r| ==> r[i].stats.s0 == 0)
      && (AllValid(canopies) ==> AllValid(r))
    decreases |canopies|
  {
    if |canopies| > 0 {
      FinalizeAllCorrect(canopies[1..]);
      var r := FinalizeAll(canopies);
      forall i | 1 <= i < |r|
        ensures r[i] == FinalizeAll(canopies[1..])[i - 1] && canopies[i] == canopies[1..][i - 1]
      {
      }
    }
  }

  /** The canopies with more than `clusterFilter` observations, in order. */
  function KeepAbove(canopies: seq<MeasureCluster>, clusterFilter: int): (r: seq<MeasureCluster>)
    ensures |r| <= |canopies|
    ensures forall c :: c in r <==> c in canopies && c.stats.numObservations > clusterFilter
  {
    if |canopies| == 0 then []
    else if canopies[0].stats.numObservations > clusterFilter then [canopies[0]] + KeepAbove(canopies[1..], clusterFilter)
    else KeepAbove(canopies[1..], clusterFilter)
  }

  /** A single canopy is kept exactly when it is above the filter. */
  lemma KeepAboveSingle(c: MeasureCluster, clusterFilter: int)
    ensures KeepAbove([c], clusterFilter) == (if c.stats.numObservations > clusterFilter then [c] else [])
  {
    assert [c][1..] == [];
  }

  /** Filtering a concatenation filters each part and keeps their order.
      With `KeepAboveSingle` this fixes the result: the canopies above the
      filter in input order, repeats kept. */
  lemma {:induction false} KeepAboveAppend(a: seq<MeasureCluster>, b: seq<MeasureCluster>, clusterFilter: int)
    ensures KeepAbove(a + b, clusterFilter) == KeepAbove(a, clusterFilter) + KeepAbove(b, clusterFilter)
    decreases |a|
  {
    if |a| > 0 {
      assert (a + b)[1..] == a[1..] + b;
      KeepAboveAppend(a[1..], b, clusterFilter);
    } else {
      assert a + b == b;
    }
  }

  /** One pass: feed the points, finalise every canopy and keep those above
      the cluster filter. A merge pass runs the same on `UseT3T4(cl)` over the
      first pass's centers. */
  function CanopyPass(cl: Clusterer, points: seq<Vector>, clusterFilter: int): (r: seq<MeasureCluster>)
    ensures |r| <= |points|
    ensures forall c :: c in r ==> c.stats.s0 == 0 && c.stats.numObservations > clusterFilter
    ensures forall c :: c in r ==> Valid(c.stats)
  {
    var streamed := AddPoints(cl, points, []).1;
    AddPointsValid(cl, points, []);
    var finalized := FinalizeAll(streamed);
    FinalizeAllCorrect(streamed);
    KeepAbove(finalized, clusterFilter)
  }

  /** A canopy grown from the points of a pass, finalised. */
  function Finalised(m: MeasureCluster): MeasureCluster
    requires CanFinalize(m.stats)
  {
    m.(stats := ComputeParameters(m.stats))
  }

  /** A pass is the filter applied to the finalised canopies of the points,
      every one of which can be finalised. */
  lemma CanopyPassUnfold(cl: Clusterer, points: seq<Vector>, clusterFilter: int)
    ensures AllValid(AddPoints(cl, points, []).1)
    ensures CanopyPass(cl, points, clusterFilter)
            == KeepAbove(FinalizeAll(AddPoints(cl, points, []).1), clusterFilter)
  {
    AddPointsValid(cl, points, []);
  }

  /** Every canopy a pass emits is the finalisation of a canopy grown from
      the points, with more than `clusterFilter` observations. */
  lemma {:induction false} EmittedIsFinalised(cl: Clusterer, points: seq<Vector>, clusterFilter: int, c: MeasureCluster)
    requires c in CanopyPass(cl, points, clusterFilter)
    ensures var streamed := AddPoints(cl, points, []).1;
      exists i :: 0 <= i < |streamed| && CanFinalize(streamed[i].stats)
        && c == Finalised(streamed[i]) && c.stats.numObservations > clusterFilter
  {
    var streamed := AddPoints(cl, points, []).1;
    CanopyPassUnfold(cl, points, clusterFilter);
    var finalized := FinalizeAll(streamed);
    FinalizeAllCorrect(streamed);
    assert c in finalized && c.stats.numObservations > clusterFilter;
    var i :| 0 <= i < |finalized| && finalized[i] == c;
    assert Valid(streamed[i].stats);
    assert c == Finalised(streamed[i]);
  }

  /** Every finalised canopy of a pass above `clusterFilter` is emitted. */
  lemma {:induction false} FinalisedIsEmitted(cl: Clusterer, points: seq<Vector>, clusterFilter: int, i: nat)
    requires i < |AddPoints(cl, points, []).1|
    requires CanFinalize(AddPoints(cl, points, []).1[i].stats)
    requires Finalised(AddPoints(cl, points, []).1[i]).stats.numObservations > clusterFilter
    ensures Finalised(AddPoints(cl, points, []).1[i]) in CanopyPass(cl, points, clusterFilter)
  {
    var streamed := AddPoints(cl, points, []).1;
    CanopyPassUnfold(cl, points, clusterFilter);
    var finalized := FinalizeAll(streamed);
    FinalizeAllCorrect(streamed);
    assert finalized[i] == Finalised(streamed[i]);
    assert finalized[i] in finalized;
  }

  /** A canopy is emitted by a pass exactly when it is the finalisation of a
      canopy grown from the points and has more than `clusterFilter`
      observations. */
  lemma CanopyPassEmits(cl: Clusterer, points: seq<Vector>, clusterFilter: int, c: MeasureCluster)
    ensures var streamed := AddPoints(cl, points, []).1;
      c in CanopyPass(cl, points, clusterFilter)
      <==> exists i :: 0 <= i < |streamed| && CanFinalize(streamed[i].stats)
             && c == Finalised(streamed[i]) && c.stats.numObservations > clusterFilter
  {
    var streamed := AddPoints(cl, points, []).1;
    if c in CanopyPass(cl, points, clusterFilter) {
      EmittedIsFinalised(cl, points, clusterFilter, c);
    }
    if exists i :: 0 <= i < |streamed| && CanFinalize(streamed[i].stats)
         && c == Finalised(streamed[i]) && c.stats.numObservations > clusterFilter {
      var i :| 0 <= i < |streamed| && CanFinalize(streamed[i].stats)
         && c == Finalised(streamed[i]) && c.stats.numObservations > clusterFilter;
      FinalisedIsEmitted(cl, points, clusterFilter, i);
    }
  }

  /** The points of `points` farther than `t2` from `seed` (not within it),
      in order. */
  function OutsideOf(seed: Vector, points: seq<Vector>, t2: real, measure: Measure): (r: seq<Vector>)
    ensures |r| <= |points|
  {
    if |points| == 0 then []
    else if measure(seed, points[0]) < t2 then OutsideOf(seed, points[1..], t2, measure)
    else [points[0]] + OutsideOf(seed, points[1..], t2, measure)
  }

  /** `OutsideOf` keeps exactly the points not within `t2` of the seed. */
  lemma {:induction false} OutsideOfMembers(seed: Vector, points: seq<Vector>, t2: real, measure: Measure)
    ensures forall p :: p in OutsideOf(seed, points, t2, measure) <==> p in points && !(measure(seed, p) < t2)
    decreases |points|
  {
    if |points| > 0 {
      OutsideOfMembers(seed, points[1..], t2, measure);
      assert points == [points[0]] + points[1..];
    }
  }

  /** The inner iterator loop of `createCanopies`: observe every point
      within `t1` of the seed, remove every point within `t2`. */
  function Sweep(seed: Vector, rest: seq<Vector>, canopy: MeasureCluster, t1: real, t2: real, measure: Measure)
    : (r: (MeasureCluster, seq<Vector>))
    ensures |r.1| <= |rest|
    decreases |rest|
  {
    if |rest| == 0 then (canopy, [])
    else
      var p2 := rest[0];
      var dist := measure(seed, p2);
      var observed := if dist < t1 then canopy.(stats := Observe(canopy.stats, p2)) else canopy;
      var tail := Sweep(seed, rest[1..], observed, t1, t2, measure);
      (tail.0, if dist < t2 then tail.1 else [p2] + tail.1)
  }

  /** The sweep leaves exactly the points outside `t2`, in order, and the
      canopy gains one pending observation per point within `t1`. */
  lemma {:induction false} SweepCorrect(seed: Vector, rest: seq<Vector>, canopy: MeasureCluster,
                                        t1: real, t2: real, measure: Measure)
    ensures var r := Sweep(seed, rest, canopy, t1, t2, measure);
      && r.1 == OutsideOf(seed, rest, t2, measure)
      && r.0.measure == canopy.measure
      && (Shaped(canopy.stats) ==>
            r.0.stats == canopy.stats.(s0 := canopy.stats.s0 + CountWithin(seed, rest, t1, measure)))
    decreases |rest|
  {
    if |rest| > 0 {
      var p2 := rest[0];
      var observed := if measure(seed, p2) < t1 then canopy.(stats := Observe(canopy.stats, p2)) else canopy;
      SweepCorrect(seed, rest[1..], observed, t1, t2, measure);
    }
  }

  /** The seeds `createCanopies` picks: the first remaining point, then the
      seeds of what lies outside `t2` of it. */
  function Seeds(points: seq<Vector>, t2: real, measure: Measure): (r: seq<Vector>)
    ensures |r| <= |points|
    ensures |points| > 0 ==> |r| > 0 && r[0] == points[0]
    decreases |points|
  {
    if |points| == 0 then []
    else [points[0]] + Seeds(OutsideOf(points[0], points[1..], t2, measure), t2, measure)
  }

  /** The points still in the list when each seed is taken, the seed itself
      excluded: what the inner loop sweeps for that seed. */
  function Rests(points: seq<Vector>, t2: real, measure: Measure): (r: seq<seq<Vector>>)
    ensures |r| == |Seeds(points, t2, measure)|
    ensures |points| > 0 ==> r[0] == points[1..]
    decreases |points|
  {
    if |points| == 0 then []
    else [points[1..]] + Rests(OutsideOf(points[0], points[1..], t2, measure), t2, measure)
  }

  /** Every seed is one of the points. */
  lemma {:induction false} SeedsArePoints(points: seq<Vector>, t2: real, measure: Measure)
    ensures forall x :: x in Seeds(points, t2, measure) ==> x in points
    decreases |points|
  {
    if |points| > 0 {
      var outside := OutsideOf(points[0], points[1..], t2, measure);
      SeedsArePoints(outside, t2, measure);
      OutsideOfMembers(points[0], points[1..], t2, measure);
    }
  }

  /** A point within `t2` of a seed never becomes a later seed. */
  lemma {:induction false} SeedsSeparated(points: seq<Vector>, t2: real, measure: Measure)
    ensures var s := Seeds(points, t2, measure);
      forall k, l :: 0 <= k < l < |s| ==> !(measure(s[k], s[l]) < t2)
    decreases |points|
  {
    if |points| > 0 {
      var outside := OutsideOf(points[0], points[1..], t2, measure);
      SeedsSeparated(outside, t2, measure);
      SeedsArePoints(outside, t2, measure);
      OutsideOfMembers(points[0], points[1..], t2, measure);
      var s := Seeds(points, t2, measure);
      forall k, l | 0 <= k < l < |s|
        ensures !(measure(s[k], s[l]) < t2)
      {
        assert s[l] in Seeds(outside, t2, measure);
        if k > 0 {
          assert s[k] == Seeds(outside, t2, measure)[k - 1];
          assert s[l] == Seeds(outside, t2, measure)[l - 1];
        }
      }
    }
  }

  /** Seeds are taken until the list is empty, so every point is a seed or
      lies within `t2` of one. */
  lemma {:induction false} SeedsCover(points: seq<Vector>, t2: real, measure: Measure)
    ensures var s := Seeds(points, t2, measure);
      forall p :: p in points ==> p in s || exists k :: 0 <= k < |s| && measure(s[k], p) < t2
    decreases |points|
  {
    if |points| > 0 {
      var outside := OutsideOf(points[0], points[1..], t2, measure);
      SeedsCover(outside, t2, measure);
      OutsideOfMembers(points[0], points[1..], t2, measure);
      var s := Seeds(points, t2, measure);
      var later := Seeds(outside, t2, measure);
      assert s == [points[0]] + later;
      forall p | p in points
        ensures p in s || exists k :: 0 <= k < |s| && measure(s[k], p) < t2
      {
        if p != points[0] && !(measure(points[0], p) < t2) {
          assert p in points[1..];
          assert p in outside;
          if p !in later {
            var k :| 0 <= k < |later| && measure(later[k], p) < t2;
            assert s[k + 1] == later[k];
          }
        } else if p != points[0] {
          assert measure(s[0], p) < t2;
        }
      }
    }
  }

  /** A finalised batch canopy grown from `seed` that absorbed `absorbed`
      points. As the source is written, its center is the seed when it
      absorbed nothing and otherwise the zero vector `s1` was left holding. */
  ghost predicate SeededAt(c: MeasureCluster, seed: Vector, measure: Measure, absorbed: nat) {
    && c.measure == measure
    && c.stats.numObservations == absorbed
    && Valid(c.stats)
    && c.stats.s0 == 0
    && c.stats.radius == Like(seed)
    && c.stats.totalObservations == c.stats.numObservations
    && c.stats.center == (if c.stats.numObservations == 0 then seed else Like(seed))
  }

  /** Canopies every one of which is finalised and well formed. */
  predicate Settled(canopies: seq<MeasureCluster>) {
    forall i :: 0 <= i < |canopies| ==> Valid(canopies[i].stats) && canopies[i].stats.s0 == 0
  }

  /** Finalising settled canopies plus one more only finalises the new one. */
  lemma FinalizeAppended(canopies: seq<MeasureCluster>, x: MeasureCluster)
    requires Settled(canopies) && CanFinalize(x.stats)
    ensures FinalizeAll(canopies + [x]) == canopies + [x.(stats := ComputeParameters(x.stats))]
  {
    var r := FinalizeAll(canopies + [x]);
    FinalizeAllCorrect(canopies + [x]);
    forall i | 0 <= i < |canopies|
      ensures r[i] == canopies[i]
    {
      assert (canopies + [x])[i] == canopies[i];
    }
  }

  /** The canopy grown from `p1` by sweeping `rest`, finalised. */
  function SeedCanopy(p1: Vector, rest: seq<Vector>, nextId: Int32, measure: Measure, t1: real, t2: real)
    : (c: MeasureCluster)
    ensures SeededAt(c, p1, measure, CountWithin(p1, rest, t1, measure)) && c.stats.id == nextId
  {
    var swept := Sweep(p1, rest, NewMeasureCluster(p1, nextId, measure), t1, t2, measure);
    SweepCorrect(p1, rest, NewMeasureCluster(p1, nextId, measure), t1, t2, measure);
    swept.0.(stats := ComputeParameters(swept.0.stats))
  }

  /** The outer loop of `createCanopies` from a state with finalised
      canopies: they are kept as they are and one canopy per seed follows
      (`CreateLoopSeeded` and `CreateLoopIds` say which). */
  function CreateLoop(points: seq<Vector>, canopies: seq<MeasureCluster>, nextId: Int32,
                      measure: Measure, t1: real, t2: real): (r: seq<MeasureCluster>)
    requires Settled(canopies)
    ensures |r| == |canopies| + |Seeds(points, t2, measure)|
    ensures r[..|canopies|] == canopies
    decreases |points|
  {
    if |points| == 0 then canopies
    else
      var p1 := points[0];
      var swept := Sweep(p1, points[1..], NewMeasureCluster(p1, nextId, measure), t1, t2, measure);
      SweepCorrect(p1, points[1..], NewMeasureCluster(p1, nextId, measure), t1, t2, measure);
      var finalized := FinalizeAll(canopies + [swept.0]);
      FinalizeAppended(canopies, swept.0);
      var c := SeedCanopy(p1, points[1..], nextId, measure, t1, t2);
      assert finalized == canopies + [c];
      var r := CreateLoop(swept.1, finalized, Inc32(nextId), measure, t1, t2);
      assert r[..|canopies|] == r[..|canopies| + 1][..|canopies|];
      r
  }

  /** One iteration of the outer loop. */
  lemma CreateLoopUnfold(points: seq<Vector>, canopies: seq<MeasureCluster>, nextId: Int32,
                         measure: Measure, t1: real, t2: real)
    requires Settled(canopies) && |points| > 0
    ensures var c := SeedCanopy(points[0], points[1..], nextId, measure, t1, t2);
      && Settled(canopies + [c])
      && CreateLoop(points, canopies, nextId, measure, t1, t2)
         == CreateLoop(OutsideOf(points[0], points[1..], t2, measure), canopies + [c], Inc32(nextId), measure, t1, t2)
  {
    var swept := Sweep(points[0], points[1..], NewMeasureCluster(points[0], nextId, measure), t1, t2, measure);
    SweepCorrect(points[0], points[1..], NewMeasureCluster(points[0], nextId, measure), t1, t2, measure);
    FinalizeAppended(canopies, swept.0);
  }

  /** The canopies the outer loop appends, one per seed in seed order: each
      seed's canopy as `SeedCanopy` grows it, without the loop's repeated
      finalisation of the canopies already made. */
  function Grown(points: seq<Vector>, nextId: Int32, measure: Measure, t1: real, t2: real): (r: seq<MeasureCluster>)
    ensures |r| == |Seeds(points, t2, measure)|
    decreases |points|
  {
    if |points| == 0 then []
    else [SeedCanopy(points[0], points[1..], nextId, measure, t1, t2)]
         + Grown(OutsideOf(points[0], points[1..], t2, measure), Inc32(nextId), measure, t1, t2)
  }

  /** The outer loop keeps the canopies it starts from and appends exactly
      `Grown`: re-finalising a finalised canopy changes nothing. */
  lemma {:induction false} CreateLoopGrown(points: seq<Vector>, canopies: seq<MeasureCluster>, nextId: Int32,
                                           measure: Measure, t1: real, t2: real)
    requires Settled(canopies)
    ensures CreateLoop(points, canopies, nextId, measure, t1, t2) == canopies + Grown(points, nextId, measure, t1, t2)
    decreases |points|
  {
    if |points| > 0 {
      var c := SeedCanopy(points[0], points[1..], nextId, measure, t1, t2);
      var outside := OutsideOf(points[0], points[1..], t2, measure);
      CreateLoopUnfold(points, canopies, nextId, measure, t1, t2);
      CreateLoopGrown(outside, canopies + [c], Inc32(nextId), measure, t1, t2);
      AppendAssociative(canopies, [c], Grown(outside, Inc32(nextId), measure, t1, t2));
    }
  }

  /** `Grown`'s `k`-th canopy, with the seed, the points left at its turn and
      the id named. */
  lemma {:induction false} GrownAt(points: seq<Vector>, nextId: Int32, measure: Measure, t1: real, t2: real,
                                   k: nat, seed: Vector, rest: seq<Vector>, id: Int32)
    requires k < |Seeds(points, t2, measure)|
    requires seed == Seeds(points, t2, measure)[k] && rest == Rests(points, t2, measure)[k]
    requires id == Advance(nextId, k)
    ensures Grown(points, nextId, measure, t1, t2)[k] == SeedCanopy(seed, rest, id, measure, t1, t2)
    decreases |points|
  {
    SeedsAndRestsTail(points, t2, measure, k);
    if k > 0 {
      GrownAt(OutsideOf(points[0], points[1..], t2, measure), Inc32(nextId), measure, t1, t2, k - 1, seed, rest, id);
    }
  }

  lemma AppendAssociative<T>(a: seq<T>, b: seq<T>, c: seq<T>)
    ensures (a + b) + c == a + (b + c)
  {
  }

  /** The `k`-th canopy the outer loop appends is exactly the canopy the
      `k`-th seed grows over the points left at its turn, with the `k`-th id
      after `nextId`. */
  lemma CreateLoopCanopy(points: seq<Vector>, canopies: seq<MeasureCluster>, nextId: Int32,
                         measure: Measure, t1: real, t2: real, k: nat)
    requires Settled(canopies)
    requires k < |Seeds(points, t2, measure)|
    ensures CreateLoop(points, canopies, nextId, measure, t1, t2)[|canopies| + k]
            == SeedCanopy(Seeds(points, t2, measure)[k], Rests(points, t2, measure)[k], Advance(nextId, k),
                          measure, t1, t2)
  {
    var grown := Grown(points, nextId, measure, t1, t2);
    CreateLoopGrown(points, canopies, nextId, measure, t1, t2);
    GrownAt(points, nextId, measure, t1, t2, k,
            Seeds(points, t2, measure)[k], Rests(points, t2, measure)[k], Advance(nextId, k));
    assert (canopies + grown)[|canopies| + k] == grown[k];
  }

  /** The `k`-th canopy the outer loop appends is grown from the `k`-th
      seed. */
  lemma CreateLoopSeeded(points: seq<Vector>, canopies: seq<MeasureCluster>, nextId: Int32,
                         measure: Measure, t1: real, t2: real, k: nat)
    requires Settled(canopies)
    requires k < |Seeds(points, t2, measure)|
    ensures var seed := Seeds(points, t2, measure)[k];
      SeededAt(CreateLoop(points, canopies, nextId, measure, t1, t2)[|canopies| + k],
               seed, measure, CountWithin(seed, Rests(points, t2, measure)[k], t1, measure))
  {
    CreateLoopCanopy(points, canopies, nextId, measure, t1, t2, k);
  }

  /** Past the first, the seeds and the points left at each seed's turn are
      those of the points outside `t2` of the first seed. */
  lemma SeedsAndRestsTail(points: seq<Vector>, t2: real, measure: Measure, k: nat)
    requires k < |Seeds(points, t2, measure)|
    ensures Seeds(points, t2, measure)[0] == points[0] && Rests(points, t2, measure)[0] == points[1..]
    ensures var outside := OutsideOf(points[0], points[1..], t2, measure);
      0 < k ==> && Seeds(points, t2, measure)[k] == Seeds(outside, t2, measure)[k - 1]
                && Rests(points, t2, measure)[k] == Rests(outside, t2, measure)[k - 1]
  {
    var outside := OutsideOf(points[0], points[1..], t2, measure);
    assert Seeds(points, t2, measure) == [points[0]] + Seeds(outside, t2, measure);
  }

  /** The `k`-th canopy the outer loop appends carries the `k`-th id after
      `nextId`. */
  lemma {:induction false} CreateLoopIds(points: seq<Vector>, canopies: seq<MeasureCluster>, nextId: Int32,
                                         measure: Measure, t1: real, t2: real, k: nat)
    requires Settled(canopies)
    requires k < |Seeds(points, t2, measure)|
    ensures CreateLoop(points, canopies, nextId, measure, t1, t2)[|canopies| + k].stats.id == Advance(nextId, k)
    decreases |points|
  {
    var c := SeedCanopy(points[0], points[1..], nextId, measure, t1, t2);
    var outside := OutsideOf(points[0], points[1..], t2, measure);
    CreateLoopUnfold(points, canopies, nextId, measure, t1, t2);
    var r := CreateLoop(outside, canopies + [c], Inc32(nextId), measure, t1, t2);
    if k == 0 {
      assert r[|canopies|] == r[..|canopies| + 1][|canopies|];
    } else {
      assert |Seeds(points, t2, measure)| == 1 + |Seeds(outside, t2, measure)|;
      CreateLoopIds(outside, canopies + [c], Inc32(nextId), measure, t1, t2, k - 1);
    }
  }

  /** `createCanopies`: one canopy per seed, in seed order, never more
      canopies than points; `BatchSeeded` and `BatchIds` say what each one is. */
  function CreateCanopies(points: seq<Vector>, measure: Measure, t1: real, t2: real): (r: seq<MeasureCluster>)
    ensures |r| == |Seeds(points, t2, measure)| <= |points|
    ensures |points| > 0 ==> |r| > 0
  {
    CreateLoop(points, [], 0, measure, t1, t2)
  }

  /** Each batch canopy is finalised, grown from the seed at its position,
      and has absorbed exactly the points within `t1` of that seed among
      those left when it was taken. */
  lemma BatchSeeded(points: seq<Vector>, measure: Measure, t1: real, t2: real)
    ensures var r := CreateCanopies(points, measure, t1, t2);
      forall k :: 0 <= k < |r| ==>
        SeededAt(r[k], Seeds(points, t2, measure)[k], measure,
                 CountWithin(Seeds(points, t2, measure)[k], Rests(points, t2, measure)[k], t1, measure))
  {
    var r := CreateCanopies(points, measure, t1, t2);
    forall k | 0 <= k < |r|
      ensures SeededAt(r[k], Seeds(points, t2, measure)[k], measure,
                       CountWithin(Seeds(points, t2, measure)[k], Rests(points, t2, measure)[k], t1, measure))
    {
      CreateLoopSeeded(points, [], 0, measure, t1, t2, k);
    }
  }

  /** Batch ids are 0, 1, 2, ... in seed order. */
  lemma BatchIds(points: seq<Vector>, measure: Measure, t1: real, t2: real)
    requires |points| <= MaxInt
    ensures var r := CreateCanopies(points, measure, t1, t2);
      forall k :: 0 <= k < |r| ==> r[k].stats.id == k
  {
    var r := CreateCanopies(points, measure, t1, t2);
    forall k | 0 <= k < |r|
      ensures r[k].stats.id == k
    {
      CreateLoopIds(points, [], 0, measure, t1, t2, k);
      AdvanceFromZero(k);
    }
  }
}

=== FILE: decimal.dfy ===
/** Java's decimal rendering of an `int` (`"" + id`), and a reader for it. */
module Decimal {
  import opened Outcomes

  predicate IsDigit(c: char) {
    '0' <= c <= '9'
  }

  predicate AllDigits(s: string) {
    forall i :: 0 <= i < |s| ==> IsDigit(s[i])
  }

  function DigitChar(d: nat): (c: char)
    requires d < 10
    ensures IsDigit(c)
  {
    ('0' as int + d) as char
  }

  function DigitValue(c: char): (d: nat)
    requires IsDigit(c)
    ensures d < 10
  {
    c as int - '0' as int
  }

  /** Decimal digits of `n`, most significant first, without leading zeros. */
  function NatToString(n: nat): (r: string)
    ensures |r| >= 1 && AllDigits(r)
    ensures |r| > 1 ==> r[0] != '0'
  {
    if n < 10 then [DigitChar(n)] else NatToString(n / 10) + [DigitChar(n % 10)]
  }

  /** Digits without a leading zero, except for "0" itself. */
  predicate CanonicalDigits(s: string) {
    |s| >= 1 && AllDigits(s) && (|s| > 1 ==> s[0] != '0')
  }

  /** The one form `Integer.toString` gives each value: canonical digits,
      after a minus sign when negative; there is no "-0". */
  predicate Canonical(s: string) {
    || CanonicalDigits(s)
    || (|s| >= 2 && s[0] == '-' && CanonicalDigits(s[1..]) && s[1] != '0')
  }

  /** `Integer.toString`: a minus sign for negative values. */
  function IntToString(i: int): (r: string)
    ensures |r| >= 1
    ensures i < 0 <==> r[0] == '-'
    ensures i >= 0 ==> AllDigits(r)
    ensures i < 0 ==> AllDigits(r[1..]) && |r| >= 2
    ensures Canonical(r)
  {
    if i < 0 then
      var r := "-" + NatToString(-i);
      assert r[1..] == NatToString(-i);
      NatToStringPositive(-i);
      r
    else NatToString(i)
  }

  /** Only 0 is written "0". */
  lemma NatToStringPositive(n: nat)
    requires n > 0
    ensures NatToString(n)[0] != '0'
  {
    if n >= 10 {
      assert NatToString(n)[0] == NatToString(n / 10)[0];
    }
  }

  function DigitsValue(s: string): nat
    requires AllDigits(s)
  {
    if |s| == 0 then 0 else DigitsValue(s[..|s| - 1]) * 10 + DigitValue(s[|s| - 1])
  }

  /** Reads back what `IntToString` writes; `None` for anything else. */
  function ParseInt(s: string): Option<int> {
    if |s| >= 2 && s[0] == '-' && AllDigits(s[1..]) then Some(0 - DigitsValue(s[1..]) as int)
    else if |s| >= 1 && AllDigits(s) then Some(DigitsValue(s))
    else None
  }

  lemma {:induction false} NatToStringRoundTrip(n: nat)
    ensures DigitsValue(NatToString(n)) == n
  {
    if n >= 10 {
      NatToStringRoundTrip(n / 10);
      var s := NatToString(n);
      assert s[..|s| - 1] == NatToString(n / 10);
    }
  }

  lemma IntToStringRoundTrip(i: int)
    ensures ParseInt(IntToString(i)) == Some(i)
  {
    if i < 0 {
      NatToStringRoundTrip(-i);
      assert IntToString(i)[1..] == NatToString(-i);
    } else {
      NatToStringRoundTrip(i);
    }
  }

  /** A digit string with a non-zero first digit has a positive value. */
  lemma {:induction false} DigitsValuePositive(s: string)
    requires |s| >= 1 && AllDigits(s) && s[0] != '0'
    ensures DigitsValue(s) >= 1
    decreases |s|
  {
    if |s| > 1 {
      assert s[..|s| - 1][0] == s[0];
      DigitsValuePositive(s[..|s| - 1]);
    }
  }

  /** Canonical digits are the rendering of their own value. */
  lemma {:induction false} CanonicalDigitsAreRendering(s: string)
    requires CanonicalDigits(s)
    ensures NatToString(DigitsValue(s)) == s
    decreases |s|
  {
    if |s| > 1 {
      var front := s[..|s| - 1];
      assert front[0] == s[0];
      DigitsValuePositive(front);
      CanonicalDigitsAreRendering(front);
      var n := DigitsValue(s);
      assert n / 10 == DigitsValue(front) && n % 10 == DigitValue(s[|s| - 1]);
      assert s == front + [s[|s| - 1]];
    }
  }

  /** The rendering is the only canonical string that reads back to `i`:
      with `IntToStringRoundTrip` this fixes `IntToString` completely. */
  lemma IntToStringUnique(i: int, s: string)
    requires Canonical(s) && ParseInt(s) == Some(i)
    ensures s == IntToString(i)
  {
    if s[0] == '-' {
      var t := s[1..];
      DigitsValuePositive(t);
      CanonicalDigitsAreRendering(t);
      assert s == "-" + t;
    } else {
      CanonicalDigitsAreRendering(s);
    }
  }
}

=== FILE: edit_distance.dfy ===
/** The textbook Levenshtein distance over token sequences: the reference the
    banded computation is measured against. Nothing here is banded. */
module EditDistance {

  function Min3(a: nat, b: nat, c: nat): (m: nat)
    ensures m <= a && m <= b && m <= c
    ensures m == a || m == b || m == c
  {
    if a <= b && a <= c then a else if b <= c then b else c
  }

  function Max(a: int, b: int): int {
    if a >= b then a else b
  }

  /** Edit distance between the first `i` tokens of `s` and the first `j`
      tokens of `t`: the cheapest of a substitution (free on equal tokens),
      a deletion and an insertion. */
  function Dist<T(==)>(s: seq<T>, t: seq<T>, i: nat, j: nat): nat
    requires i <= |s| && j <= |t|
    decreases i + j
  {
    if i == 0 then j
    else if j == 0 then i
    else Min3(Dist(s, t, i - 1, j - 1) + (if s[i - 1] == t[j - 1] then 0 else 1),
              Dist(s, t, i - 1, j) + 1,
              Dist(s, t, i, j - 1) + 1)
  }

  function Lev<T(==)>(s: seq<T>, t: seq<T>): nat {
    Dist(s, t, |s|, |t|)
  }

  /** At least the difference of the lengths: that many insertions or
      deletions are unavoidable. */
  lemma {:induction false} DistAtLeastLengthGap<T>(s: seq<T>, t: seq<T>, i: nat, j: nat)
    requires i <= |s| && j <= |t|
    ensures Dist(s, t, i, j) >= i - j && Dist(s, t, i, j) >= j - i
    decreases i + j
  {
    if i > 0 && j > 0 {
      DistAtLeastLengthGap(s, t, i - 1, j - 1);
      DistAtLeastLengthGap(s, t, i - 1, j);
      DistAtLeastLengthGap(s, t, i, j - 1);
    }
  }

  /** At most the longer length: substitute along the diagonal, then insert
      or delete the rest. */
  lemma {:induction false} DistAtMostLonger<T>(s: seq<T>, t: seq<T>, i: nat, j: nat)
    requires i <= |s| && j <= |t|
    ensures Dist(s, t, i, j) <= Max(i, j)
    decreases i + j
  {
    if i > 0 && j > 0 {
      DistAtMostLonger(s, t, i - 1, j - 1);
    }
  }

  /** Dropping the last token of `s` lowers the distance by at most one. */
  lemma {:induction false} DropFromFirst<T>(s: seq<T>, t: seq<T>, i: nat, j: nat)
    requires 1 <= i <= |s| && j <= |t|
    ensures Dist(s, t, i - 1, j) <= Dist(s, t, i, j) + 1
    decreases j
  {
    if j == 0 {
    } else if i == 1 {
      DistAtLeastLengthGap(s, t, i, j);
    } else {
      DropFromFirst(s, t, i, j - 1);
    }
  }

  /** Dropping the last token of `t` lowers the distance by at most one. */
  lemma {:induction false} DropFromSecond<T>(s: seq<T>, t: seq<T>, i: nat, j: nat)
    requires i <= |s| && 1 <= j <= |t|
    ensures Dist(s, t, i, j - 1) <= Dist(s, t, i, j) + 1
    decreases i
  {
    if i == 0 {
    } else if j == 1 {
      DistAtLeastLengthGap(s, t, i, j);
    } else {
      DropFromSecond(s, t, i - 1, j);
    }
  }

  /** When the last tokens agree, matching them is always optimal: the
      distance is that of the two shorter prefixes. */
  lemma DistOnMatch<T>(s: seq<T>, t: seq<T>, i: nat, j: nat)
    requires 1 <= i <= |s| && 1 <= j <= |t| && s[i - 1] == t[j - 1]
    ensures Dist(s, t, i, j) == Dist(s, t, i - 1, j - 1)
  {
    DropFromFirst(s, t, i, j - 1);
    DropFromSecond(s, t, i - 1, j);
  }

  /** When the last tokens differ, the distance is one more than the best
      of substituting, deleting and inserting. */
  lemma DistOnMismatch<T>(s: seq<T>, t: seq<T>, i: nat, j: nat)
    requires 1 <= i <= |s| && 1 <= j <= |t| && s[i - 1] != t[j - 1]
    ensures Dist(s, t, i, j)
            == 1 + Min3(Dist(s, t, i - 1, j - 1), Dist(s, t, i - 1, j), Dist(s, t, i, j - 1))
  {
  }

  lemma {:induction false} DistSymmetric<T>(s: seq<T>, t: seq<T>, i: nat, j: nat)
    requires i <= |s| && j <= |t|
    ensures Dist(s, t, i, j) == Dist(t, s, j, i)
    decreases i + j
  {
    if i > 0 && j > 0 {
      DistSymmetric(s, t, i - 1, j - 1);
      DistSymmetric(s, t, i - 1, j);
      DistSymmetric(s, t, i, j - 1);
    }
  }

  lemma {:induction false} DistToItself<T>(s: seq<T>, i: nat)
    requires i <= |s|
    ensures Dist(s, s, i, i) == 0
  {
    if i > 0 {
      DistToItself(s, i - 1);
    }
  }
}

=== FILE: java_int.dfy ===
/** Java's 32-bit `int`, as far as the model needs it. */
module JavaInt {

  const MinInt: int := -0x8000_0000
  const MaxInt: int := 0x7fff_ffff

  type Int32 = x: int | MinInt <= x <= MaxInt

  /** `x++` on a Java `int`: two's-complement wrap-around. */
  function Inc32(x: Int32): (r: Int32)
    ensures x < MaxInt ==> r == x + 1
    ensures x == MaxInt ==> r == MinInt
  {
    (x + 1 - MinInt) % 0x1_0000_0000 + MinInt
  }
}

=== FILE: levenshtein_measure.dfy ===
/** The banded Levenshtein distance measure over the non-zero values of two
    vectors (LevensteinDistanceMeasure). */
module LevenshteinMeasure {
  import opened Outcomes
  import opened JavaInt
  import opened Vectors
  import opened EditDistance

  function Min(a: int, b: int): int {
    if a <= b then a else b
  }

  /** What `getLevenshteinDistance` promises, stated with the unbanded edit
      distance: an error for a negative threshold; for an empty side the
      other side's raw length when it is within the threshold and 1
      otherwise; else the edit distance over the longer length when it is
      within the threshold and 1.0 otherwise. */
  function BoundedDistance<T(==)>(s: seq<T>, t: seq<T>, threshold: int): Result<real> {
    if threshold < 0 then IllegalArgument("Threshold must not be negative")
    else if |s| == 0 then Ok(if |t| <= threshold then |t| as real else 1.0)
    else if |t| == 0 then Ok(if |s| <= threshold then |s| as real else 1.0)
    else if Lev(s, t) <= threshold then Ok(Lev(s, t) as real / Max(|s|, |t|) as real)
    else Ok(1.0)
  }

  /** The value cell (i, j) of the two-row table holds once row j has been
      computed, for the shorter sequence `s` (columns) and the longer `t`
      (rows), with stripe half-width `k`. Column 0 always holds the row
      number; a cell outside the stripe holds the sentinel MaxInt. */
  ghost function Band<T>(s: seq<T>, t: seq<T>, k: nat, i: nat, j: nat): int
    requires i <= |s| && j <= |t|
    decreases i + j
  {
    if i == 0 then j
    else if i > j + k || j > i + k then MaxInt
    else if j == 0 then i
    else if s[i - 1] == t[j - 1] then Band(s, t, k, i - 1, j - 1)
    else 1 + Min(Min(Band(s, t, k, i - 1, j), Band(s, t, k, i, j - 1)), Band(s, t, k, i - 1, j - 1))
  }

  /** Every cell inside the stripe is finite and at most the longer prefix
      length, so `1 + min(...)` never reads three sentinels and never
      overflows. */
  lemma {:induction false} BandFinite<T>(s: seq<T>, t: seq<T>, k: nat, i: nat, j: nat)
    requires i <= |s| && j <= |t| && |s| < MaxInt && |t| < MaxInt
    ensures 0 <= Band(s, t, k, i, j) <= MaxInt
    ensures i == 0 || (i <= j + k && j <= i + k) ==> Band(s, t, k, i, j) <= Max(i, j)
    decreases i + j
  {
    if i > 0 && j > 0 {
      BandFinite(s, t, k, i - 1, j - 1);
      BandFinite(s, t, k, i - 1, j);
      BandFinite(s, t, k, i, j - 1);
    }
  }

  /** Bounding each of three values from below bounds their minimum. */
  lemma MinOfBounds(left: int, up: int, diag: int, dd: nat, dl: nat, du: nat)
    requires left >= dl && up >= du && diag >= dd
    ensures Min(Min(left, up), diag) >= Min3(dd, dl, du)
  {
  }

  /** Inside the stripe, a cell with differing tokens is one more than the
      cheapest of its three neighbours. */
  lemma BandOnMismatch<T>(s: seq<T>, t: seq<T>, k: nat, i: nat, j: nat)
    requires 1 <= i <= |s| && 1 <= j <= |t| && i <= j + k && j <= i + k && s[i - 1] != t[j - 1]
    ensures Band(s, t, k, i, j)
            == 1 + Min(Min(Band(s, t, k, i - 1, j), Band(s, t, k, i, j - 1)), Band(s, t, k, i - 1, j - 1))
  {
  }

  /** `BandAtLeastDist` on the table's edges and outside the stripe, where
      the cell is a prefix length or the sentinel. */
  lemma EdgeAtLeast<T>(s: seq<T>, t: seq<T>, k: nat, i: nat, j: nat)
    requires i <= |s| && j <= |t| && |t| < MaxInt && |s| < MaxInt
    requires i == 0 || j == 0 || i > j + k || j > i + k
    ensures Band(s, t, k, i, j) >= Dist(s, t, i, j)
  {
    DistAtMostLonger(s, t, i, j);
  }

  /** The stripe only leaves paths out, so it never undercuts the true
      distance. */
  lemma {:induction false} BandAtLeastDist<T>(s: seq<T>, t: seq<T>, k: nat, i: nat, j: nat)
    requires i <= |s| && j <= |t| && |t| < MaxInt && |s| < MaxInt
    ensures Band(s, t, k, i, j) >= Dist(s, t, i, j)
    decreases i + j, 1
  {
    if i == 0 || j == 0 || i > j + k || j > i + k {
      EdgeAtLeast(s, t, k, i, j);
    } else if s[i - 1] == t[j - 1] {
      MatchAtLeast(s, t, k, i, j);
    } else {
      MismatchAtLeast(s, t, k, i, j);
    }
  }

  /** `BandAtLeastDist` on equal tokens inside the stripe: both sides follow
      the diagonal. */
  lemma {:induction false} MatchAtLeast<T>(s: seq<T>, t: seq<T>, k: nat, i: nat, j: nat)
    requires 1 <= i <= |s| && 1 <= j <= |t| && |t| < MaxInt && |s| < MaxInt
    requires i <= j + k && j <= i + k && s[i - 1] == t[j - 1]
    ensures Band(s, t, k, i, j) >= Dist(s, t, i, j)
    decreases i + j, 0
  {
    BandAtLeastDist(s, t, k, i - 1, j - 1);
    DistOnMatch(s, t, i, j);
  }

  /** `BandAtLeastDist` on differing tokens inside the stripe: the three
      neighbours are no lower than their true distances, so neither is the
      cell. */
  lemma {:induction false} MismatchAtLeast<T>(s: seq<T>, t: seq<T>, k: nat, i: nat, j: nat)
    requires 1 <= i <= |s| && 1 <= j <= |t| && |t| < MaxInt && |s| < MaxInt
    requires i <= j + k && j <= i + k && s[i - 1] != t[j - 1]
    ensures Band(s, t, k, i, j) >= Dist(s, t, i, j)
    decreases i + j, 0
  {
    BandAtLeastDist(s, t, k, i - 1, j - 1);
    BandAtLeastDist(s, t, k, i - 1, j);
    BandAtLeastDist(s, t, k, i, j - 1);
    BandOnMismatch(s, t, k, i, j);
    DistOnMismatch(s, t, i, j);
    MinOfBounds(Band(s, t, k, i - 1, j), Band(s, t, k, i, j - 1), Band(s, t, k, i - 1, j - 1),
                Dist(s, t, i - 1, j - 1), Dist(s, t, i - 1, j), Dist(s, t, i, j - 1));
  }

  /** Within the threshold, the stripe holds an optimal path, so the banded
      cell is exact. */
  lemma {:induction false} BandExactWithinThreshold<T>(s: seq<T>, t: seq<T>, k: nat, i: nat, j: nat)
    requires i <= |s| && j <= |t| && |t| < MaxInt && |s| < MaxInt
    requires Dist(s, t, i, j) <= k
    ensures Band(s, t, k, i, j) == Dist(s, t, i, j)
    decreases i + j, 1
  {
    DistAtLeastLengthGap(s, t, i, j);
    if i > 0 && j > 0 {
      if s[i - 1] == t[j - 1] {
        DistOnMatch(s, t, i, j);
        BandExactWithinThreshold(s, t, k, i - 1, j - 1);
      } else {
        MismatchExact(s, t, k, i, j);
      }
    }
  }

  /** `BandExactWithinThreshold` on differing tokens: every neighbour is at
      least its true distance and exact when within the threshold, and the
      cheapest neighbour is within it. */
  lemma {:induction false} MismatchExact<T>(s: seq<T>, t: seq<T>, k: nat, i: nat, j: nat)
    requires 1 <= i <= |s| && 1 <= j <= |t| && |t| < MaxInt && |s| < MaxInt
    requires s[i - 1] != t[j - 1] && Dist(s, t, i, j) <= k
    ensures Band(s, t, k, i, j) == Dist(s, t, i, j)
    decreases i + j, 0
  {
    DistAtLeastLengthGap(s, t, i, j);
    NeighbourMeetsDist(s, t, k, i - 1, j - 1);
    NeighbourMeetsDist(s, t, k, i - 1, j);
    NeighbourMeetsDist(s, t, k, i, j - 1);
    MismatchFromNeighbours(s, t, k, i, j);
  }

  /** One step of `MismatchExact`, given the bounds on the three neighbours. */
  lemma MismatchFromNeighbours<T>(s: seq<T>, t: seq<T>, k: nat, i: nat, j: nat)
    requires 1 <= i <= |s| && 1 <= j <= |t| && i <= j + k && j <= i + k
    requires s[i - 1] != t[j - 1] && Dist(s, t, i, j) <= k
    requires Band(s, t, k, i - 1, j - 1) >= Dist(s, t, i - 1, j - 1)
    requires Band(s, t, k, i - 1, j) >= Dist(s, t, i - 1, j)
    requires Band(s, t, k, i, j - 1) >= Dist(s, t, i, j - 1)
    requires Dist(s, t, i - 1, j - 1) <= k ==> Band(s, t, k, i - 1, j - 1) == Dist(s, t, i - 1, j - 1)
    requires Dist(s, t, i - 1, j) <= k ==> Band(s, t, k, i - 1, j) == Dist(s, t, i - 1, j)
    requires Dist(s, t, i, j - 1) <= k ==> Band(s, t, k, i, j - 1) == Dist(s, t, i, j - 1)
    ensures Band(s, t, k, i, j) == Dist(s, t, i, j)
  {
    BandOnMismatch(s, t, k, i, j);
    DistOnMismatch(s, t, i, j);
    MinOfExact(Band(s, t, k, i - 1, j), Band(s, t, k, i, j - 1), Band(s, t, k, i - 1, j - 1),
               Dist(s, t, i - 1, j - 1), Dist(s, t, i - 1, j), Dist(s, t, i, j - 1), k);
  }

  /** Both bounds on one cell at once. */
  lemma {:induction false} NeighbourMeetsDist<T>(s: seq<T>, t: seq<T>, k: nat, i: nat, j: nat)
    requires i <= |s| && j <= |t| && |t| < MaxInt && |s| < MaxInt
    ensures Band(s, t, k, i, j) >= Dist(s, t, i, j)
    ensures Dist(s, t, i, j) <= k ==> Band(s, t, k, i, j) == Dist(s, t, i, j)
    decreases i + j, 2
  {
    BandAtLeastDist(s, t, k, i, j);
    if Dist(s, t, i, j) <= k {
      BandExactWithinThreshold(s, t, k, i, j);
    }
  }

  /** Three values, each at least its bound and equal to it when the bound is
      within `k`, have the bounds' minimum as their minimum once that minimum
      is below `k`. */
  lemma MinOfExact(left: int, up: int, diag: int, dd: nat, dl: nat, du: nat, k: nat)
    requires left >= dl && up >= du && diag >= dd
    requires (dl <= k ==> left == dl) && (du <= k ==> up == du) && (dd <= k ==> diag == dd)
    requires Min3(dd, dl, du) < k
    ensures Min(Min(left, up), diag) == Min3(dd, dl, du)
  {
  }

  /** The banded cost lies within the threshold exactly when the true
      distance does, and then the two agree. */
  lemma BandedCostCorrect<T>(s: seq<T>, t: seq<T>, k: nat)
    requires |s| < MaxInt && |t| < MaxInt
    ensures Band(s, t, k, |s|, |t|) <= k <==> Dist(s, t, |s|, |t|) <= k
    ensures Band(s, t, k, |s|, |t|) <= k ==> Band(s, t, k, |s|, |t|) == Dist(s, t, |s|, |t|)
  {
    BandAtLeastDist(s, t, k, |s|, |t|);
    if Dist(s, t, |s|, |t|) <= k {
      BandExactWithinThreshold(s, t, k, |s|, |t|);
    }
  }

  /** One cell of the inner loop: the diagonal on equal tokens, otherwise
      one more than the cheapest of left, above and diagonal. */
  function CellCost(equal: bool, left: int, up: int, diag: int): int {
    if equal then diag else 1 + Min(Min(left, up), diag)
  }

  /** Fed the three neighbouring cells, `CellCost` yields the cell and the
      result fits a Java `int`. */
  lemma CellCostCorrect<T>(a: seq<T>, b: seq<T>, k: nat, i: nat, j: nat, left: int, up: int, diag: int)
    requires |a| < MaxInt && |b| < MaxInt
    requires 1 <= i <= |a| && 1 <= j <= |b| && i <= j + k && j <= i + k
    requires left == Band(a, b, k, i - 1, j) && up == Band(a, b, k, i, j - 1)
    requires diag == Band(a, b, k, i - 1, j - 1)
    ensures CellCost(a[i - 1] == b[j - 1], left, up, diag) == Band(a, b, k, i, j)
    ensures 0 <= Band(a, b, k, i, j) <= MaxInt
  {
    BandFinite(a, b, k, i, j);
  }

  /** Fills row `j` of the stripe into `d` (the inner loop of
      `getLevenshteinDistance`), reading row `j - 1` from `p`. */
  method FillRow<T(==)>(a: seq<T>, b: seq<T>, ghost k: nat, p: array<Int32>, d: array<Int32>,
                        j: nat, lo: nat, hi: nat)
    modifies d
    requires |a| < MaxInt && |b| < MaxInt
    requires p != d && p.Length == |a| + 1 && d.Length == |a| + 1
    requires 1 <= j <= |b| && lo == Max(1, j - k) && hi == Min(|a|, j + k) && lo <= hi
    requires d[0] == j && (lo > 1 ==> d[lo - 1] == MaxInt)
    requires forall x {:trigger p[x]} :: 0 <= x <= |a| && (x == 0 || x + k + 2 >= j) ==> p[x] == Band(a, b, k, x, j - 1)
    requires forall x {:trigger d[x]} :: 0 <= x <= |a| && x > j - 1 + k ==> d[x] == MaxInt
    ensures forall x {:trigger d[x]} :: 0 <= x <= |a| && (x == 0 || x + k + 1 >= j) ==> d[x] == Band(a, b, k, x, j)
  {
    var tj := b[j - 1];
    var i := lo;
    while i <= hi
      invariant lo <= i <= hi + 1
      invariant d[0] == j
      invariant lo > 1 ==> d[lo - 1] == MaxInt
      invariant forall x {:trigger d[x]} :: lo <= x < i ==> d[x] == Band(a, b, k, x, j)
      invariant forall x {:trigger d[x]} :: i <= x <= |a| && x > j - 1 + k ==> d[x] == MaxInt
    {
      assert d[i - 1] == Band(a, b, k, i - 1, j);
      CellCostCorrect(a, b, k, i, j, d[i - 1], p[i], p[i - 1]);
      d[i] := CellCost(a[i - 1] == tj, d[i - 1], p[i], p[i - 1]);
      i := i + 1;
    }
  }

  /** The row loop of `getLevenshteinDistance` for the shorter sequence
      `a` and the longer `b`: either the stripe leaves the table (`offTable`),
      which happens only when the lengths differ by more than `threshold`,
      or `cost` is the last cell of the stripe. */
  method StripeCost<T(==)>(a: seq<T>, b: seq<T>, threshold: Int32) returns (offTable: bool, cost: Int32)
    requires 1 <= |a| <= |b| < MaxInt && threshold >= 0
    ensures offTable ==> |b| - |a| > threshold
    ensures !offTable ==> cost == Band(a, b, threshold, |a|, |b|)
  {
    var n, m := |a|, |b|;
    ghost var k: nat := threshold;
    var boundary := Min(n, threshold) + 1;
    var p := new Int32[n + 1](x => if x < boundary then x else MaxInt);
    var d := new Int32[n + 1](x => MaxInt);

    var j := 1;
    while j <= m
      invariant 1 <= j <= m + 1
      invariant p != d && p.Length == n + 1 && d.Length == n + 1 && fresh(p) && fresh(d)
      invariant j - 1 <= n + k
      invariant forall x {:trigger p[x]} :: 0 <= x <= n && (x == 0 || x + k + 2 >= j) ==> p[x] == Band(a, b, k, x, j - 1)
      invariant forall x {:trigger d[x]} :: 0 <= x <= n && x > j - 1 + k ==> d[x] == MaxInt
    {
      d[0] := j;
      var lo := if 1 >= j - threshold then 1 else j - threshold;
      var hi := if j > MaxInt - threshold then n else Min(n, j + threshold);
      if lo > hi {
        return true, 0;
      }
      if lo > 1 {
        d[lo - 1] := MaxInt;
      }
      FillRow(a, b, k, p, d, j, lo, hi);
      p, d := d, p;
      j := j + 1;
    }
    return false, p[n];
  }

  /** `getLevenshteinDistance`: the banded dynamic program with two swapped
      rows and the MaxInt sentinel. */
  method GetLevenshteinDistance<T(==)>(s: seq<T>, t: seq<T>, threshold: Int32) returns (r: Result<real>)
    requires |s| < MaxInt && |t| < MaxInt
    ensures r == BoundedDistance(s, t, threshold)
    ensures r.IllegalArgument? <==> threshold < 0
    ensures threshold >= 0 && |s| > 0 && |t| > 0 && Lev(s, t) <= threshold ==>
              r == Ok(Lev(s, t) as real / Max(|s|, |t|) as real)
    ensures threshold >= 0 && |s| > 0 && |t| > 0 && Lev(s, t) > threshold ==> r == Ok(1.0)
  {
    if threshold < 0 {
      return IllegalArgument("Threshold must not be negative");
    }
    var n := |s|;
    var m := |t|;
    if n == 0 {
      return Ok(if m <= threshold then m as real else 1.0);
    } else if m == 0 {
      return Ok(if n <= threshold then n as real else 1.0);
    }
    // make `a` the shorter sequence
    var a, b := s, t;
    if n > m {
      a, b := t, s;
    }
    assert Lev(s, t) == Lev(a, b) by {
      DistSymmetric(s, t, |s|, |t|);
    }
    var offTable, cost := StripeCost(a, b, threshold);
    if offTable {
      DistAtLeastLengthGap(a, b, |a|, |b|);
      return Ok(1.0);
    }
    BandedCostCorrect(a, b, threshold);
    if cost <= threshold {
      return Ok(cost as real / Max(|s|, |t|) as real);
    } else {
      return Ok(1.0);
    }
  }

  /** `(int) Math.ceil(longest * 0.2)`, as the integer ceiling of a fifth:
      the least `k` with `5 * k >= longest`. */
  function ThresholdFor(longest: nat): (k: nat)
    ensures 5 * k >= longest
    ensures k == 0 || 5 * (k - 1) < longest
  {
    (longest + 4) / 5
  }

  /** A raw length `l` passes the empty-side test only when it is 0 or 1. */
  lemma ShortWithinItsThreshold(l: nat)
    ensures l <= ThresholdFor(l) <==> l <= 1
  {
  }

  lemma RatioAtMostOne(x: nat, y: nat)
    ensures 0 < y && x <= y ==> 0.0 <= x as real / y as real <= 1.0
  {
  }

  /** `distance(v1, v2)`: the bounded edit distance of the two non-zero
      token sequences with a threshold of a fifth of the longer one. */
  function Distance(v1: Vector, v2: Vector): (r: real)
    ensures 0.0 <= r <= 1.0
  {
    var l1, l2 := NonZeroes(v1), NonZeroes(v2);
    var k := ThresholdFor(Max(|l1|, |l2|));
    ShortWithinItsThreshold(|l1|);
    ShortWithinItsThreshold(|l2|);
    DistAtMostLonger(l1, l2, |l1|, |l2|);
    RatioAtMostOne(Lev(l1, l2), Max(|l1|, |l2|));
    BoundedDistance(l1, l2, k).value
  }

  /** The vector form, running the banded program. */
  method ComputeDistance(v1: Vector, v2: Vector) returns (r: real)
    requires |v1.values| < MaxInt && |v2.values| < MaxInt
    ensures r == Distance(v1, v2)
  {
    var l1, l2 := NonZeroes(v1), NonZeroes(v2);
    var threshold := ThresholdFor(Max(|l1|, |l2|));
    var res := GetLevenshteinDistance(l1, l2, threshold);
    r := res.value;
  }

  /** `distance(centroidLengthSquare, centroid, v)`. */
  function DistanceWithLength(centroidLengthSquare: real, centroid: Vector, v: Vector): real {
    Distance(centroid, v)
  }

  /** The squared centroid length is ignored. */
  lemma CentroidLengthIgnored(x: real, y: real, centroid: Vector, v: Vector)
    ensures DistanceWithLength(x, centroid, v) == DistanceWithLength(y, centroid, v)
    ensures DistanceWithLength(x, centroid, v) == Distance(centroid, v)
  {
  }

  /** The measure as an instance of the distance-measure interface. */
  const Levenshtein: Measure := (a: Vector, b: Vector) => Distance(a, b)

  /** Identical token sequences are at distance 0 for any valid threshold. */
  lemma IdenticalAtZero<T>(s: seq<T>, threshold: int)
    requires threshold >= 0
    ensures BoundedDistance(s, s, threshold) == Ok(0.0)
  {
    DistToItself(s, |s|);
  }

  lemma VectorAtZeroFromItself(v: Vector)
    ensures Distance(v, v) == 0.0
  {
    IdenticalAtZero(NonZeroes(v), ThresholdFor(|NonZeroes(v)|));
  }

  /** When the lengths differ by more than the threshold the result is
      maximal, whether or not one side is empty. */
  lemma LengthGapIsMaximal<T>(s: seq<T>, t: seq<T>, threshold: int)
    requires threshold >= 0
    requires |s| - |t| > threshold || |t| - |s| > threshold
    ensures BoundedDistance(s, t, threshold) == Ok(1.0)
  {
    DistAtLeastLengthGap(s, t, |s|, |t|);
  }

  /** With an empty side the value is a raw length, not normalised. */
  lemma EmptySideIsRawLength<T>(s: seq<T>, t: seq<T>, threshold: int)
    requires threshold >= 0 && (|s| == 0 || |t| == 0)
    ensures var l := |s| + |t|;
      BoundedDistance(s, t, threshold) == Ok(if l <= threshold then l as real else 1.0)
  {
  }

  /** The bounded distance does not depend on the order of its arguments. */
  lemma BoundedDistanceSymmetric<T>(s: seq<T>, t: seq<T>, threshold: int)
    ensures BoundedDistance(s, t, threshold) == BoundedDistance(t, s, threshold)
  {
    if |s| > 0 && |t| > 0 {
      DistSymmetric(s, t, |s|, |t|);
    }
  }

  /** The vector distance is symmetric. */
  lemma DistanceSymmetric(v1: Vector, v2: Vector)
    ensures Distance(v1, v2) == Distance(v2, v1)
  {
    BoundedDistanceSymmetric(NonZeroes(v1), NonZeroes(v2), ThresholdFor(Max(|NonZeroes(v1)|, |NonZeroes(v2)|)));
  }
}

=== FILE: measure_cluster.dfy ===
/** A cluster bound to a distance measure (SequenceDistanceMeasureCluster);
    the source's SequenceCanopy is taken to be this class. */
module MeasureCluster {
  import opened Outcomes
  import opened JavaInt
  import opened Vectors
  import opened Decimal
  import opened AbstractCluster
  import LevenshteinMeasure

  datatype MeasureCluster = MeasureCluster(stats: Cluster, measure: Measure)

  /** The constructor `(point, id, measure)`. */
  function NewMeasureCluster(point: Vector, id: Int32, measure: Measure): (c: MeasureCluster)
    ensures c.stats == Seed(point, id) && c.measure == measure
  {
    MeasureCluster(Seed(point, id), measure)
  }

  /** `getIdentifier`: "DMC:" and the id in decimal. */
  function Identifier(c: MeasureCluster): (r: string)
    ensures |r| > 4 && r[..4] == "DMC:"
    ensures Canonical(r[4..]) && ParseInt(r[4..]) == Some(c.stats.id as int)
  {
    IntToStringRoundTrip(c.stats.id);
    var r := "DMC:" + IntToString(c.stats.id);
    assert r[4..] == IntToString(c.stats.id);
    r
  }

  /** The identifier is "DMC:" followed by the one canonical decimal form of
      the id: no other string is. */
  lemma IdentifierUnique(c: MeasureCluster, digits: string)
    requires Canonical(digits) && ParseInt(digits) == Some(c.stats.id as int)
    ensures Identifier(c) == "DMC:" + digits
  {
    IntToStringUnique(c.stats.id as int, digits);
  }

  /** Distinct ids give distinct identifiers. */
  lemma IdentifierInjective(c: MeasureCluster, d: MeasureCluster)
    requires c.stats.id != d.stats.id
    ensures Identifier(c) != Identifier(d)
  {
  }

  /** `sampleFromPosterior`: a fresh cluster at the same center, with the
      same id and measure and zeroed statistics. */
  function SampleFromPosterior(c: MeasureCluster): (r: MeasureCluster)
    ensures r.stats.center == c.stats.center && r.stats.id == c.stats.id && r.measure == c.measure
    ensures r.stats.s0 == 0 && r.stats.numObservations == 0 && r.stats.totalObservations == 0
    ensures IsZero(r.stats.radius) && SameShape(r.stats.radius, c.stats.center)
    ensures Valid(r.stats)
    ensures IsZero(r.stats.s1.value) && SameShape(r.stats.s1.value, c.stats.center)
    ensures IsZero(r.stats.s2.value) && SameShape(r.stats.s2.value, c.stats.center)
  {
    NewMeasureCluster(c.stats.center, c.stats.id, c.measure)
  }

  /** Sampling from a sample gives the sample again. */
  lemma SampleFromPosteriorIdempotent(c: MeasureCluster)
    ensures SampleFromPosterior(SampleFromPosterior(c)) == SampleFromPosterior(c)
  {
  }

  lemma ReciprocalBounds(d: real)
    requires d >= 0.0
    ensures 0.0 < 1.0 / (1.0 + d) <= 1.0
    ensures d <= 1.0 ==> 1.0 / (1.0 + d) >= 0.5
    ensures d == 0.0 <==> 1.0 / (1.0 + d) == 1.0
  {
    var q := 1.0 / (1.0 + d);
    assert q * (1.0 + d) == 1.0;
    if d <= 1.0 {
      assert q * (1.0 + d) <= q * 2.0;
    }
  }

  /** `pdf(x) = 1 / (1 + distance(x, center))`. */
  function Pdf(c: MeasureCluster, x: Vector): (r: real)
    ensures 0.0 < r <= 1.0
    ensures c.measure(x, c.stats.center) <= 1.0 ==> r >= 0.5
    ensures c.measure(x, c.stats.center) == 0.0 <==> r == 1.0
  {
    ReciprocalBounds(c.measure(x, c.stats.center));
    1.0 / (1.0 + c.measure(x, c.stats.center))
  }

  /** Bound to the Levenshtein measure, the density lies in [1/2, 1]. */
  lemma LevenshteinPdfBounds(c: MeasureCluster, x: Vector)
    requires c.measure == LevenshteinMeasure.Levenshtein
    ensures 0.5 <= Pdf(c, x) <= 1.0
  {
    assert c.measure(x, c.stats.center) == LevenshteinMeasure.Distance(x, c.stats.center);
  }

  function GetMeasure(c: MeasureCluster): Measure {
    c.measure
  }

  function SetMeasure(c: MeasureCluster, m: Measure): MeasureCluster {
    c.(measure := m)
  }

  /** `getMeasure` after `setMeasure` returns the measure set, and the
      statistics are untouched. */
  lemma GetAfterSetMeasure(c: MeasureCluster, m: Measure)
    ensures GetMeasure(SetMeasure(c, m)) == m
    ensures SetMeasure(c, m).stats == c.stats
  {
  }
}

=== FILE: outcomes.dfy ===
/** Optional values (a Java reference that may be null) and results of
    operations that may throw an IllegalArgumentException. */
module Outcomes {

  datatype Option<+T> = None | Some(value: T)

  datatype Result<+T> = Ok(value: T) | IllegalArgument(message: string)
}

=== FILE: vectors.dfy ===
/** Vectors and the distance-measure interface.

    A vector is modelled densely by its values in index order; `Clone` is the
    identity on such immutable values and `Like` is the zero vector of the
    same shape. */
module Vectors {

  datatype Vector = Vector(values: seq<real>)

  predicate SameShape(a: Vector, b: Vector) {
    |a.values| == |b.values|
  }

  predicate IsZero(v: Vector) {
    forall i :: 0 <= i < |v.values| ==> v.values[i] == 0.0
  }

  /** `v.like()`: an all-zero vector with the shape of `v`. */
  function Like(v: Vector): (r: Vector)
    ensures SameShape(r, v) && IsZero(r)
  {
    Vector(seq(|v.values|, _ => 0.0))
  }

  /** The non-zero values of `xs`, in index order. */
  function NonZeroValues(xs: seq<real>): (r: seq<real>)
    ensures |r| <= |xs|
    ensures forall x :: x in r <==> x in xs && x != 0.0
  {
    if |xs| == 0 then []
    else if xs[0] == 0.0 then NonZeroValues(xs[1..])
    else [xs[0]] + NonZeroValues(xs[1..])
  }

  /** The token sequence the edit-distance measure compares: the values of
      `v.nonZeroes()`, taken in index order. */
  function NonZeroes(v: Vector): (r: seq<real>)
    ensures |r| <= |v.values|
    ensures forall x :: x in r <==> x in v.values && x != 0.0
  {
    NonZeroValues(v.values)
  }

  /** One value contributes itself exactly when it is non-zero. */
  lemma NonZeroValuesSingle(x: real)
    ensures NonZeroValues([x]) == (if x == 0.0 then [] else [x])
  {
    assert [x][1..] == [];
  }

  /** The tokens of a concatenation are the tokens of its parts, in order.
      With `NonZeroValuesSingle` this fixes the result completely: the
      non-zero values in index order, repeats kept. */
  lemma {:induction false} NonZeroValuesAppend(a: seq<real>, b: seq<real>)
    ensures NonZeroValues(a + b) == NonZeroValues(a) + NonZeroValues(b)
    decreases |a|
  {
    if |a| > 0 {
      assert (a + b)[1..] == a[1..] + b;
      NonZeroValuesAppend(a[1..], b);
    } else {
      assert a + b == b;
    }
  }

  lemma {:induction false} ZeroValuesHaveNoTokens(xs: seq<real>)
    requires forall i :: 0 <= i < |xs| ==> xs[i] == 0.0
    ensures NonZeroValues(xs) == []
  {
    if |xs| > 0 {
      ZeroValuesHaveNoTokens(xs[1..]);
    }
  }

  /** The `DistanceMeasure` interface: any function of two vectors that
      never returns a negative value. */
  type Measure = f: (Vector, Vector) -> real | forall a, b :: f(a, b) >= 0.0
    witness (a: Vector, b: Vector) => 0.0
}
